=== FILE: README.md ===
# smelt: command runner, process supervisor, contexts and configuration

smelt is a build tool. It compiles a Python package's modules with mypyc, Cython or a
C compiler, and produces standalone binaries with Nuitka. This project models its
sequential core in Dafny and proves properties of that model:

- **The command record** (`CommandContext`): one external command's arguments,
  directory, exit code, captured lines and timing, with its derived status
  (`pending`, `success`) and its log rendering (module `CommandRecord`).
- **The command runner** (`call_command`): it pumps a child's stdout and stderr
  until both end, the timeout passes or the selector reports nothing. Each line
  is stripped, printed and stored under its stream. A process still running
  when reading stops gets exit code 130 and is handed to the collector
  (module `Runner`). The operating system is replaced by a trace of what each
  pass of the read loop observed.
- **The process garbage collector** (`ProcessGarbageCollector`): a sequential
  state machine over a watched-process table keyed by record identity. It
  covers `interrupt`, `run`, `_schedule_kill`, `_refresh_state`,
  `_kill_process` and `shutdown_handler` (module `Collector`). Its invariant
  holds for a new collector and is proved for every state reachable from it
  (`Collector.NewCollectorReachesValid`): once the loop runs, every process
  still running in the table has a kill scheduled.
- **The context registry** (`smelt.context`): the global context with its
  named contexts and ordered traces, its report rendering, `TaskTrace`, and
  the module-level enable/reset/clear switch (module `Contexts`).
- **The configuration validators**:
  - `parse_config` and `parse_config_from_pyproject` of the frontend (module `Frontend`).
  - The older `parse_config` and `build_standalone_binary` of `smelt.cli` (module `Cli`).
  - The import-map conversion and converter of `smelt.config` (module `Config`).
  - For `Frontend` and `Cli`, TOML data is the `Toml.Value` datatype. `Config`
    takes its own argument datatypes: a section value is a section object,
    keyword arguments, or a value that is no mapping, and a `modules` value
    is a dict's items or a value that is not a dict.
- **The Nuitka command line** of `compile_with_nuitka` and the name of the binary it
  produces (module `Nuitka`).

Shared helpers: `Wrappers` holds `Option` and `Result`. `Text` holds `join`,
`split`, `rstrip`, `replace` and `basename` on `seq<char>`.

Behaviour that depends on the outside world becomes a parameter:

- `seconds` formats a duration (the source's `:.2f`).
- `isValid` is `is_valid_import_path`.
- `finalPoll`, `proc` and `procAtSignal` are what `poll()` reports.
- `now`, `startTime` and `endElapsed` are clock readings.
- `hasPrinter` says whether a line printer was given.
- `platform` is `sys.platform`.

Where the code and its own documentation or tests disagree, the model follows
the code. The two defects under "## Findings" are modelled both ways: as written
(`Collector.KillProcess`, `Nuitka.BinaryName`), which is what the rest of the
model uses, and corrected beside it (`Collector.KillProcessIntended`,
`Nuitka.BinaryNameIntended`). Other places where code and documentation differ:

- `GlobalContext.get_context` indexes its dictionary. It therefore raises
  `KeyError` for an absent name, although its docstring promises `None`
  (`Contexts.GetContext`).
- The frontend's `parse_config` defaults a missing `c_extensions` to `[]`.
  That default is a list and fails its own table check, so a configuration
  without `c_extensions` is rejected (`Frontend.ParseConfig`).
- The frontend test gives `c_extensions` as an array of strings. An array fails
  the `isinstance(_, dict)` check at src/smelt/frontend.py:69 as well, so the
  test's configuration is rejected (`Frontend.ArrayStyleConfigIsRejected`).
- The element check for `mypyc` in `smelt.cli` iterates `c_extensions` again,
  so `mypyc`'s elements are never checked (`Cli.MypycElementsUnchecked`).

## Model

| member | source | states |
|---|---|---|
| CommandRecord.StatusToken | src/smelt/process.py:74-96 | the header's status token is `OK` exactly for exit code 0, `PENDING` exactly when there is no exit code, `[FAILED]` exactly for any other code |
| CommandRecord.Pending | src/smelt/process.py:52-57 | `pending`; `CommandRecord.StatusTokenAgrees` proves it holds exactly when there is no exit code, and exactly when the header shows `PENDING` |
| CommandRecord.Success | src/smelt/process.py:59-65 | `success`: a successful record is never pending; `CommandRecord.StatusTokenAgrees` proves it holds exactly on exit code 0, and exactly when the header shows `OK` |
| CommandRecord.Command | src/smelt/process.py:67-72 | `command`; `CommandRecord.CommandSplitsBack` proves the arguments come back from it by splitting at spaces |
| CommandRecord.StatusTokenAgrees | src/smelt/process.py:52-96 | `pending` holds exactly when there is no exit code and `success` exactly on exit code 0, so a successful record is never pending; the header shows `OK` exactly for a successful record and `PENDING` exactly for a pending one |
| CommandRecord.CommandSplitsBack | src/smelt/process.py:67-72 | the one-line command is the arguments joined by single spaces: splitting it at spaces gives the arguments back when none holds a space |
| CommandRecord.HeaderFields | src/smelt/process.py:74-90 | the header holds the bracketed directory, `>`, the command and the status token, in that order; the elapsed-time field is present exactly when the execution time is present and non-zero |
| CommandRecord.RenderLines | src/smelt/process.py:74-96 | the rendering is the header line, then a `Stdout` block with every stdout line only when there are some, then a `Stderr` block likewise; with no captured line it is the header alone |
| CommandRecord.Render | src/smelt/process.py:74-96 | `render`; `CommandRecord.RenderLines` states which lines it is made of and `CommandRecord.RenderSplitsIntoLines` that splitting it at newlines gives them back |
| CommandRecord.RenderSplitsIntoLines | src/smelt/process.py:74-96 | the rendering joins its lines with newlines, and splitting it at newlines gives those lines back when none contains a newline |
| Runner.RoundsRead | src/smelt/process.py:306-318 | the loop completes exactly the passes before the first one at which both streams have ended, the timeout has passed or the selector reported nothing |
| Runner.PumpSnoc | src/smelt/process.py:320-337 | an empty readline unregisters its stream; any other line is stripped of trailing newlines, passed to the printer and appended to its own stream's list, and nothing else changes |
| Runner.ReadReady | src/smelt/process.py:320-337 | one pass over the ready streams, in the order reported, leaves the loop state that the reference definition gives for all readouts so far |
| Runner.ReadOutput | src/smelt/process.py:306-337 | the read loop's result equals the reference capture: the stripped lines of the passes read, split by stream in arrival order, and all of them in arrival order for the printer |
| Runner.CallCommand | src/smelt/process.py:247-356 | the record keeps the arguments; the directory defaults to the process's own when absent or empty; it is never pending; its exit code is the polled one, or 130 when the process has not exited; it succeeds exactly on exit 0; it is handed to the collector exactly when the process has not exited; its stdout and stderr and the printer's calls are those of the reference capture |
| Runner.CallCommandSupervised | src/smelt/process.py:339-359 | a process that has exited leaves the collector untouched; otherwise the record, under an identity not yet in use, goes through `interrupt` |
| Runner.TimeoutOnlyTruncates | src/smelt/process.py:306-318 | for the same trace, a timeout only cuts reading short: each stream's lines and the printer's calls are prefixes of what is read without one |
| Runner.PrinterSeesEveryLine | src/smelt/process.py:328-337 | with a printer, it is called once for every stored line of either stream |
| Runner.ReceivedStripped | src/smelt/process.py:320-337 | no stored line ends in a newline, and every readout except an end of stream is stored |
| Runner.EchoToTheEnd | tests/test_process.py:30-44 | the three-echo command read to the end gives stdout `1`, `2`, `3`, no stderr, and success |
| Runner.EchoTimesOut | tests/test_process.py:76-97 | with a 0.15 s timeout only `1` is kept, the exit code is 130, nothing goes to stderr, and the process goes to the collector |
| Collector.SignalExitCodes | src/smelt/process.py:339-344 | the convention `0x80 + n` for a death by signal `n` gives 130 for SIGINT, the code `call_command` records, and 137 for SIGKILL |
| Collector.KillCodeAsWrittenIsNoSignalCode | src/smelt/process.py:206-214 | the kill code as written, `0x80 - SIGKILL`, is 119: below 0x80 and not SIGKILL's signal code |
| Collector.KillRecordsSignalCode | src/smelt/process.py:206-214 | with the corrected kill code, a record whose process the collector kills takes exit code 137, which lies SIGKILL above 0x80 |
| Collector.NewCollector | src/smelt/process.py:117-130 | a new collector watches nothing, has no loop and no scheduled kill, and satisfies the collector's invariant |
| Collector.KillTimer | src/smelt/process.py:178-195 | a kill is due `allowance` after the command's own start time, or `allowance` from now when it has none |
| Collector.NoKillBeforeDeadline | src/smelt/process.py:178-195 | the event loop runs a scheduled kill only once its delay has passed, so a command with a start time is never killed before its start plus the grace period |
| Collector.Interrupt | src/smelt/process.py:152-164 | a process already gone leaves the collector unchanged; otherwise the record is watched as running and, only if the loop exists, one kill is scheduled for it; nothing else changes |
| Collector.Run | src/smelt/process.py:166-176 | the loop then exists; every record watched at that point gets its kill scheduled; no other kill is added; the table, the warnings and the grace period are unchanged |
| Collector.Refresh | src/smelt/process.py:216-235 | exactly the processes that ended leave the table and the running ones stay; a record whose process ended takes the observed exit code; other records keep theirs |
| Collector.Killed | src/smelt/process.py:197-204 | updating a record sets the exit code and keeps the arguments, the captured lines and the start time |
| Collector.KillProcess | src/smelt/process.py:206-214 | the state is refreshed first; a process no longer watched is left alone; otherwise the process is killed and stays in the table, and its record takes exit code 119 as written, keeping its arguments and captured lines; every other record is the refreshed one |
| Collector.KillProcessIntended | src/smelt/process.py:206-214 | the same transition with the corrected kill code: refresh first, leave a process no longer watched alone, otherwise kill it and keep the table's keys and every other record |
| Collector.Fire | src/smelt/process.py:178-214 | the event loop running one scheduled kill consumes exactly that timer; the table only shrinks; the target, if still in the table, is marked killed, and every other process left in it is running |
| Collector.KilledLeavesOnNextRefresh | src/smelt/process.py:206-235 | a killed process is never killed twice: the next refresh removes it and its record takes the status `poll` reports for SIGKILL |
| Collector.Shutdown | src/smelt/process.py:237-244 | every still-running watched process is killed; the table's keys, the records, the scheduled kills, the warnings and the grace period stay as they are |
| Collector.RefreshKeepsValid | src/smelt/process.py:216-235 | a refresh keeps the collector's invariant |
| Collector.InterruptKeepsValid | src/smelt/process.py:152-164 | `interrupt` keeps the collector's invariant |
| Collector.RunKeepsValid | src/smelt/process.py:166-176 | `run` keeps the collector's invariant |
| Collector.FireKeepsValid | src/smelt/process.py:178-214 | a scheduled kill firing keeps the collector's invariant |
| Collector.NextKeepsValid | src/smelt/process.py:152-244 | every transition keeps the invariant: watched records are known, and once the loop runs every running watched process has a kill scheduled |
| Collector.ReachableIsValid | src/smelt/process.py:152-244 | the invariant holds after any sequence of transitions from a state that has it |
| Collector.NewCollectorReachesValid | src/smelt/process.py:117-244 | the invariant holds in every state a new collector reaches through any sequence of transitions |
| Contexts.RenderContext | src/smelt/context.py:121-126 | `render` dispatched on the kind of context; `Contexts.TaskRenderIsJoin` proves a task trace renders as its elements' renderings joined by newlines |
| Contexts.RenderedElements | src/smelt/context.py:121-126 | one rendering per element of a task trace, in the order added |
| Contexts.Comment | src/smelt/context.py:115-116 | a comment is appended as the last element, the earlier ones unchanged |
| Contexts.AddSubContext | src/smelt/context.py:118-119 | a sub-context is appended as the last element, the earlier ones unchanged |
| Contexts.TaskRenderIsJoin | src/smelt/context.py:121-126 | a task trace renders as its elements' renderings joined by newlines |
| Contexts.AppendRendersLast | src/smelt/context.py:115-126 | adding an element adds its rendering as a new last line of the task trace's rendering |
| Contexts.TaskRenderSplits | src/smelt/context.py:121-126 | splitting a task trace's rendering at newlines gives back each element's rendering when none holds a newline |
| Contexts.AddTrace | src/smelt/context.py:51-56 | a trace is appended at the end; the stored contexts are unchanged |
| Contexts.ClearTraces | src/smelt/context.py:58-62 | the trace list is emptied; the stored contexts are unchanged |
| Contexts.CreateContext | src/smelt/context.py:64-68 | a new name takes the last place in the order and an existing name keeps its place; the traces are unchanged; the order/entries invariant is kept |
| Contexts.GetContext | src/smelt/context.py:70-75 | a lookup fails with `KeyError` for exactly the names never stored, and otherwise gives the context stored under the name |
| Contexts.GetAfterCreate | src/smelt/context.py:64-75 | after storing `c` under a name, looking that name up gives `c`, and every other name gives what it gave before |
| Contexts.CreateOverwrites | src/smelt/context.py:64-68 | storing twice under one name is storing the second context once |
| Contexts.ClearKeepsContexts | src/smelt/context.py:58-75 | clearing the traces changes no lookup and no position |
| Contexts.EntryLines | src/smelt/context.py:83-87 | each stored name gives three lines: the name, a rule of `-` as long as the name, and the context's rendering |
| Contexts.TraceLines | src/smelt/context.py:88-91 | each trace gives one line, `> ` before its rendering, in order of addition |
| Contexts.Layout | src/smelt/context.py:77-92 | the report starts with the general header exactly when some context is stored, and it is empty when nothing is stored and there is no trace |
| Contexts.LayoutEntry | src/smelt/context.py:82-87 | the `i`-th stored name's three lines sit right after the general header and the earlier names' lines |
| Contexts.LayoutTrace | src/smelt/context.py:88-91 | the trace header follows the stored contexts, and the `j`-th trace's line follows the earlier traces |
| Contexts.LayoutSnoc | src/smelt/context.py:88-91 | one more trace adds one line at the end, after the trace header when it is the first |
| Contexts.RenderLines | src/smelt/context.py:77-92 | the global report starts with the general header exactly when some context is stored, and it is empty for an empty global context |
| Contexts.RenderedEntry | src/smelt/context.py:82-87 | each stored context appears as its name, a rule as long as the name, and its rendering, in the order first stored |
| Contexts.RenderedTrace | src/smelt/context.py:88-91 | each trace appears as `> ` and its rendering after the trace header, in order of addition |
| Contexts.Render | src/smelt/context.py:77-92 | `GlobalContext.render`; `Contexts.RenderLines`, `Contexts.RenderedEntry` and `Contexts.RenderedTrace` state where each stored context and each trace appears in it |
| Contexts.EmptyRendersNothing | src/smelt/context.py:77-92 | an empty global context renders as the empty string |
| Contexts.AddTraceRendersLast | src/smelt/context.py:51-56 | adding a trace appends exactly its line to the report, after a trace header when it is the first |
| Contexts.Enable | src/smelt/context.py:156-163 | afterwards contexts are enabled; an existing global context is kept, and only a disabled registry gets a new empty one |
| Contexts.Reset | src/smelt/context.py:166-174 | afterwards contexts are enabled, with no stored context and no trace, whatever was there |
| Contexts.Clear | src/smelt/context.py:177-182 | afterwards contexts are disabled |
| Contexts.IsEnabled | src/smelt/context.py:149-153 | `is_global_context_enabled`; `Contexts.Enable`, `Contexts.Reset` and `Contexts.Clear` state what each makes of it, and `Contexts.GetGlobal` gives the global context exactly when it holds |
| Contexts.GetGlobal | src/smelt/context.py:140-153 | the global context is given exactly when contexts are enabled, and it is the registry's own |
| Contexts.GetNamed | src/smelt/context.py:140-146 | while disabled every lookup gives `None`; while enabled it fails for exactly the names never stored and otherwise gives the stored context |
| Contexts.CreateIfEnabled | src/smelt/context.py:185-195 | while disabled it returns `None` and stores nothing; while enabled it stores the made context under the name, returns it, and a lookup of that name gives it back; every other name and the traces are unchanged |
| Contexts.EnableIdempotent | src/smelt/context.py:156-163 | enabling twice is enabling once, and enabling never loses a stored context |
| Contexts.ResetAndClear | src/smelt/context.py:166-182 | after a reset every name is absent; after a clear every lookup gives `None` and creating stores nothing |
| Contexts.OperationsKeepValid | src/smelt/context.py:51-195 | every registry operation keeps each stored name listed exactly once in the order |
| Contexts.TwoDummies | tests/test_context.py:78-91 | two contexts stored under `ctx1` and `ctx2` are each found under their own name, and both appear in the report in the order stored |
| Frontend.ParseConfig | src/smelt/frontend.py:61-93 | checks run in the order `c_extensions` (a string table, with `[]` as the absent default), `mypyc` (a string table, absent means empty), then `entrypoint` (missing, or not a string); each error occurs exactly when its check is the first to fail; on success the fields are carried through unchanged |
| Frontend.ParseConfigFromPyproject | src/smelt/frontend.py:96-115 | a `tool` that is not a table, a missing `smelt` section (also when `tool` is missing) and a `smelt` that is not a table each give their own error, exactly then; otherwise the `smelt` table is validated |
| Frontend.ArrayStyleConfigIsRejected | tests/test_frontend.py:15-38 | the array-style `[tool.smelt]` table of the frontend test fails the `c_extensions` check |
| Cli.ParseConfig | src/smelt/cli.py:21-40 | `c_extensions` must be a list of strings (absent means `[]`), `mypyc` a list, and `entrypoint` present and a string, checked in that order; each error, the missing-or-non-string `entrypoint` included, occurs exactly when its check is the first to fail; on success the values are carried through unchanged |
| Cli.MypycElementsUnchecked | src/smelt/cli.py:27-30 | replacing `mypyc` by any list whatever its elements never turns success into failure, and it is carried through as given |
| Cli.BuildStandaloneBinary | src/smelt/cli.py:73-90 | with no `pyproject.toml` nothing happens; an empty or missing `[tool.smelt]` stops before parsing; the backend runs exactly when the section is a non-empty table that parses, and on the parsed configuration; a missing or non-table section raises exactly then; a configuration rejected with a `SmeltConfigError` is reported as that error, and an assertion failure of the parser propagates as that assertion, each exactly when it occurs |
| Cli.NoSmeltTableNeverBuilds | src/smelt/cli.py:80-82 | a project with no `[tool.smelt]` table, or no `tool` table, never reaches the backend |
| Config.ImportMapOf | src/smelt/config.py:54-63 | the conversion fails exactly when some import path is invalid; on success the keys are exactly the input paths |
| Config.FirstInvalidReported | src/smelt/config.py:56-61 | the error names the first invalid import path in iteration order |
| Config.LastOccurrenceWins | src/smelt/config.py:62-63 | on success each path maps to its import path, the last one given for it |
| Config.MakeSection | src/smelt/config.py:54-84 | an unknown keyword is a `TypeError`; a `modules` that is not a dict is an `AttributeError` (it has no `items`); a dict goes through the import-map conversion; no keyword at all gives an empty section |
| Config.Convert | src/smelt/config.py:43-51 | an object already of the target class passes through unchanged; a value that is no mapping, another section's object included, is a `TypeError`; keyword arguments build the class |
| Config.ConvertIdempotent | src/smelt/config.py:43-45 | converting an already converted value gives the same value |
| Config.MakeSmeltConfig | src/smelt/config.py:87-108 | the configuration is built exactly when all three sections convert; the error is `mypyc`'s when it fails, else `cython`'s, else `native_extensions`'; on success each section is its converted value, and `entrypoint` and `debug` are kept |
| Config.DefaultsConstructible | tests/test_config.py:21-25 | every configuration class can be built with no argument, each section empty |
| Nuitka.Flags | src/smelt/nuitkaify.py:59-65 | one `<flag><name>` token per name, in order |
| Nuitka.Argv | src/smelt/nuitkaify.py:52-65 | the command line starts with `python -m nuitka`; `--follow-imports` comes next exactly when imports are followed; `--onefile` and the path follow; one token per included module and package comes after |
| Nuitka.ParseFront | src/smelt/nuitkaify.py:52-56 | the fixed front of the command line reads back as built: the interpreter, `-m nuitka`, the follow-imports choice, `--onefile` and the path |
| Nuitka.TailRoundTrip | src/smelt/nuitkaify.py:59-65 | the module tokens come first and the package tokens after, and each group reads back as the names it was built from, in order |
| Nuitka.ArgvRoundTrip | src/smelt/nuitkaify.py:52-65 | the command line loses nothing: reading it back gives the interpreter, the path, the follow-imports choice and every module and package in order, with `None` read as no name |
| Nuitka.WindowsGetsBinAsWritten | src/smelt/nuitkaify.py:83 | the platform test as written gives `.bin` even on Windows (`sys.platform` is `win32`) |
| Nuitka.ExtensionAsWritten | src/smelt/nuitkaify.py:83 | the test as written picks `.exe` exactly for the platform string `Windows`, so on Windows (`win32`) it picks `.bin` |
| Nuitka.Extension | src/smelt/nuitkaify.py:83 | the extension is `.exe` exactly on Windows and `.bin` everywhere else |
| Nuitka.NoPyAfterReplace | src/smelt/nuitkaify.py:84 | replacing every `.py` with such an extension leaves no `.py` in the name, not even across a replaced piece |
| Nuitka.BinaryName | src/smelt/nuitkaify.py:83-84 | with the platform test as written, the binary's name is a single path component and holds no `.py` |
| Nuitka.BinaryNameIntended | src/smelt/nuitkaify.py:83-84 | with the corrected platform test, the binary's name is a single path component and holds no `.py` |
| Nuitka.BinaryNameOnWindows | src/smelt/nuitkaify.py:83-84 | on Windows (`win32`) `d/m.py` gives `m.bin` as written and `m.exe` when corrected |
| Nuitka.BinaryNamesAgreeOffWindows | src/smelt/nuitkaify.py:83-84 | on every platform other than Windows the written and the corrected names agree |
| Nuitka.BinaryNameOfScript | src/smelt/nuitkaify.py:83-84 | for any directory and any stem with no `/` and no `.py`, `dir/stem.py` gives the stem followed by the platform's extension, as written and as intended |
| Nuitka.BinaryNameKeepsPlainNames | src/smelt/nuitkaify.py:84 | a file name with no `.py` in it is returned as it is, by the written and the corrected definition alike |
| Nuitka.BinaryNameExample | src/smelt/nuitkaify.py:83-84 | `d/m.py` gives `m.bin` on Linux |

## Left out

- Threads, the asyncio event loop and `call_soon_threadsafe`, the lock, `atexit` registration and the `get_singleton` cache. Each collector operation is one atomic transition, and the caller passes the collector explicitly.
- `Popen`, `selectors`, signal delivery, `poll`, reading from pipes and the wall clock. These become a trace of readouts per loop pass and parameters for the polled states and clock readings.
- `call_command`'s `on_popen` hook and its `process_gc` argument. The hook only observes the process, and the collector is passed in explicitly.
- The warning text and the logging of the collector. Only which records disagreed is kept, in `warnings`.
- Formatting of the elapsed time with two decimals. It is the `seconds` parameter; only whether the field is shown is modelled.
- `CommandContext.__str__`. It formats the one-line summary `[cwd] command`, with no status, time or output, and is not modelled.
- Object identity of contexts. Contexts are values, so mutating a stored context after storing it is not modelled. A context class is modelled by the instance its constructor makes.
- `PathTrace` in `smelt.context`. It is a record holding a working directory, with no operation of its own.
- `SmeltConfig(...)` construction at the end of both validators. Both pass a `mypyc` keyword that `smelt.backend`'s configuration lacks, and `smelt.backend` is not part of this model. The validated fields are returned as a record instead. In the source, every configuration that passes the checks therefore raises `TypeError` at that construction, outside the `SmeltConfigError` handler, so `run_backend` is never reached. The backend outcome of `Cli.BuildStandaloneBinary` marks the point where the checks have passed, not a call the source makes.
- Frontend.ParseConfig: the `str`-key half of the dict check is not modelled. TOML keys are always strings.
- `smelt.backend`, `smelt.mypycify`, `smelt.compiler` and the hatch build hook. They orchestrate external compilers, and they are not part of this model.
- The click command wiring, `show_config`, the frontend's `build_standalone_binary`, `nuitkaify` and `compile_module` commands, `wrap_smelt_errors`, `tomllib` and file reading. The command-line decision of `smelt.cli`'s `build_standalone_binary` is modelled, starting from the parsed file or its absence.
- Config.MakeSection: the keys and import paths of a `modules` dict are taken to be strings. A non-string import path would reach `is_valid_import_path`, which is not part of this model.
- `is_valid_import_path` of `smelt.utils`. It is not part of this model and is the `isValid` parameter.
- `pathlib.Path` normalisation. Paths are opaque keys built from their strings, so two spellings of one path are two keys.
- `SmeltConfig.__str__` and `SmeltConfig.load_env`. They are printing and an environment-variable side effect.
- The Nuitka availability check, the subprocess, its output streaming and the final `os.path.exists` assertion in `compile_with_nuitka`.
- Nuitka.Argv: the contents of the module and package tokens are stated through `Nuitka.Flags` and the round trip `Nuitka.ArgvRoundTrip`, not in `Argv`'s own contract.
- Collector.Interrupt: the early return for a process that has already exited is kept. With CPython 3.9 or later `send_signal` polls first and ignores `ProcessLookupError`, so that return never happens: an exited process is still entered into the table, and the next refresh replaces its 130 with the polled code. The model does not follow that path.
- Collector.KillProcess: SIGKILL is taken to act at once, so the process is marked exited with the SIGKILL status. The source only sends the signal, and the process ends when the operating system delivers it.
- Text.Basename: only `/` separates path components. The platform chooses the extension only; Windows' `\` separator is not modelled.
- Nuitka.BinaryName: the contract states what the name cannot contain; `Nuitka.BinaryNameOfScript` and `Nuitka.BinaryNameKeepsPlainNames` pin its value. It is not stated as an equation with `basename` and `replace`, because that would repeat the body.
- Nuitka.BinaryNameIntended: the same contract as `Nuitka.BinaryName`, for the corrected platform test; the same two lemmas pin its value.

## Findings

| source | as written | input that shows it | evidently intended | confidence | as-written member | corrected member |
|---|---|---|---|---|---|---|
| src/smelt/process.py:214 | a killed command's record gets exit code `0x80 - signal.SIGKILL`, which is 119 | any command the collector has to kill after its grace period | `0x80 + SIGKILL` = 137, matching the `0x80 + SIGINT` = 130 of `call_command` (line 344) | medium, not executed | Collector.KillProcess | Collector.KillProcessIntended |
| src/smelt/nuitkaify.py:83 | the `.exe` extension is chosen when `sys.platform == "Windows"` | running on Windows, where `sys.platform` is `"win32"`; the name gets `.bin` | `.exe` on Windows | medium, not executed | Nuitka.BinaryName | Nuitka.BinaryNameIntended |

=== FILE: cli.dfy ===
/** The validator and the build decision of `smelt.cli`. This older command
    line expects arrays of module names rather than tables. */
module Cli {
  import opened Wrappers
  import opened Toml

  /** The validated fields. `mypyc` keeps the raw elements: the validator
      checks that it is an array but never looks at its elements. */
  datatype CliConfig = CliConfig(
    cExtensions: seq<string>,
    mypyc: seq<Value>,
    entrypoint: string)

  function Strings(v: Value): (xs: seq<string>)
    requires IsStrArray(v)
    ensures |xs| == |v.items| && forall i :: 0 <= i < |xs| ==> v.items[i] == Str(xs[i])
  {
    seq(|v.items|, i requires 0 <= i < |v.items| => v.items[i].s)
  }

  /** `parse_config`: `c_extensions` must be a list of strings (absent means
      `[]`), `mypyc` a list (absent means `[]`), `entrypoint` a string. */
  function ParseConfig(data: map<string, Value>): (r: Result<CliConfig, ParseError>)
    ensures r == Failure(AssertionFailed("c_extensions")) <==> "c_extensions" in data && !IsStrArray(data["c_extensions"])
    ensures r == Failure(AssertionFailed("mypyc")) <==>
      ("c_extensions" in data ==> IsStrArray(data["c_extensions"])) && "mypyc" in data && !data["mypyc"].Array?
    ensures r == Failure(MissingEntrypoint) <==>
      && ("c_extensions" in data ==> IsStrArray(data["c_extensions"]))
      && ("mypyc" in data ==> data["mypyc"].Array?)
      && "entrypoint" !in data
    ensures r == Failure(AssertionFailed("entrypoint")) <==>
      && ("c_extensions" in data ==> IsStrArray(data["c_extensions"]))
      && ("mypyc" in data ==> data["mypyc"].Array?)
      && "entrypoint" in data && !data["entrypoint"].Str?
    ensures r.Success? <==>
      && ("c_extensions" in data ==> IsStrArray(data["c_extensions"]))
      && ("mypyc" in data ==> data["mypyc"].Array?)
      && "entrypoint" in data && data["entrypoint"].Str?
    ensures r.Success? ==>
      && Array(seq(|r.value.cExtensions|, i requires 0 <= i < |r.value.cExtensions| => Str(r.value.cExtensions[i])))
         == Lookup(data, "c_extensions").GetOr(Array([]))
      && Array(r.value.mypyc) == Lookup(data, "mypyc").GetOr(Array([]))
      && Str(r.value.entrypoint) == data["entrypoint"]
  {
    var cExtensions := Lookup(data, "c_extensions").GetOr(Array([]));
    if !IsStrArray(cExtensions) then Failure(AssertionFailed("c_extensions"))
    else
      var mypyc := Lookup(data, "mypyc").GetOr(Array([]));
      // The element check of the source iterates `c_extensions` again, so it
      // holds here already and `mypyc`'s elements go unchecked.
      if !(mypyc.Array? && IsStrArray(cExtensions)) then Failure(AssertionFailed("mypyc"))
      else match Lookup(data, "entrypoint")
        case None => Failure(MissingEntrypoint)
        case Some(entrypoint) =>
          if !entrypoint.Str? then Failure(AssertionFailed("entrypoint"))
          else Success(CliConfig(Strings(cExtensions), mypyc.items, entrypoint.s))
  }

  /** Whatever the elements of `mypyc` are, they do not make the validator fail. */
  lemma {:induction false} MypycElementsUnchecked(data: map<string, Value>, items: seq<Value>)
    requires ParseConfig(data).Success?
    ensures ParseConfig(data["mypyc" := Array(items)]) == Success(ParseConfig(data).value.(mypyc := items))
  {
    var d := data["mypyc" := Array(items)];
    assert Lookup(d, "c_extensions") == Lookup(data, "c_extensions");
    assert Lookup(d, "entrypoint") == Lookup(data, "entrypoint");
  }

  /** Why an uncaught exception leaves the command. */
  datatype Uncaught =
    | NoGetMethod          // `.get` called on a value that is not a table
    | Assertion(key: string)

  /** What `build_standalone_binary` does once `pyproject.toml` is read. */
  datatype BuildDecision =
    | NoPyproject
    | NotUsingSmelt
    | ConfigIncorrect(error: ParseError)
    | RunBackend(config: CliConfig)
    | Raised(reason: Uncaught)

  /** The `[tool.smelt]` table lookup of the command, with `{}` defaults. */
  function SmeltSection(data: map<string, Value>): Option<Value>
  {
    var tool := Lookup(data, "tool").GetOr(Table(map[]));
    if !tool.Table? then None else Some(Lookup(tool.entries, "smelt").GetOr(Table(map[])))
  }

  /** `build_standalone_binary`: bail out when the project does not use
      smelt or its configuration is rejected, run the backend otherwise. */
  function BuildStandaloneBinary(pyproject: Option<map<string, Value>>): (d: BuildDecision)
    ensures pyproject.None? <==> d == NoPyproject
    ensures d == NotUsingSmelt <==> pyproject.Some? && SmeltSection(pyproject.value) == Some(Table(map[]))
    ensures d.RunBackend? <==>
      pyproject.Some? && SmeltSection(pyproject.value).Some? && SmeltSection(pyproject.value).value.Table?
      && SmeltSection(pyproject.value).value != Table(map[])
      && ParseConfig(SmeltSection(pyproject.value).value.entries).Success?
    ensures d.RunBackend? ==> ParseConfig(SmeltSection(pyproject.value).value.entries) == Success(d.config)
    ensures d == Raised(NoGetMethod) <==>
      pyproject.Some? && (SmeltSection(pyproject.value).None? || !SmeltSection(pyproject.value).value.Table?)
    ensures d.ConfigIncorrect? <==>
      pyproject.Some? && SmeltSection(pyproject.value).Some? && SmeltSection(pyproject.value).value.Table?
      && SmeltSection(pyproject.value).value != Table(map[])
      && ParseConfig(SmeltSection(pyproject.value).value.entries).Failure?
      && ParseConfig(SmeltSection(pyproject.value).value.entries).error.IsSmeltConfigError()
    ensures d.ConfigIncorrect? ==> Failure(d.error) == ParseConfig(SmeltSection(pyproject.value).value.entries)
    ensures d.Raised? && d.reason.Assertion? <==>
      pyproject.Some? && SmeltSection(pyproject.value).Some? && SmeltSection(pyproject.value).value.Table?
      && SmeltSection(pyproject.value).value != Table(map[])
      && ParseConfig(SmeltSection(pyproject.value).value.entries).Failure?
      && !ParseConfig(SmeltSection(pyproject.value).value.entries).error.IsSmeltConfigError()
    ensures d.Raised? && d.reason.Assertion? ==>
      ParseConfig(SmeltSection(pyproject.value).value.entries) == Failure(AssertionFailed(d.reason.key))
  {
    match pyproject
    case None => NoPyproject
    case Some(data) =>
      match SmeltSection(data)
      case None => Raised(NoGetMethod)
      case Some(smelt) =>
        if smelt == Table(map[]) then NotUsingSmelt
        else if !smelt.Table? then Raised(NoGetMethod)
        else match ParseConfig(smelt.entries)
          case Success(config) => RunBackend(config)
          case Failure(e) => if e.IsSmeltConfigError() then ConfigIncorrect(e) else Raised(Assertion(e.key))
  }

  /** A project with no `[tool.smelt]` table never reaches the backend. */
  lemma NoSmeltTableNeverBuilds(data: map<string, Value>)
    requires "tool" !in data || (data["tool"].Table? && "smelt" !in data["tool"].entries)
    ensures BuildStandaloneBinary(Some(data)) == NotUsingSmelt
  {
  }
}

=== FILE: collector.dfy ===
/** `ProcessGarbageCollector` of `smelt.process` as a sequential state
    machine. Each operation is one atomic transition; the thread, the event
    loop's internals and the lock are not modelled. Records are identified
    by an `Id` (the source hashes them by object identity), and every record
    owns the one process it was run in. */
module Collector {
  import opened Wrappers
  import opened CommandRecord

  type Id = nat

  /** What `Popen.poll()` reports for a process. */
  datatype ProcState = Running | Exited(code: int)

  /** A pending `call_later(delay, _kill_process, ...)`, issued at `scheduledAt`. */
  datatype Timer = Timer(id: Id, delay: real, scheduledAt: real)
  {
    /** `call_later` runs the callback once `delay` has passed since scheduling. */
    predicate Due(now: real)
    {
      now >= scheduledAt + delay
    }
  }

  datatype Gc = Gc(
    watched: map<Id, ProcState>,          // the watched-process table
    records: map<Id, CommandContext>,     // the records it has been handed, as they now are
    loopStarted: bool,                    // `_loop` is set
    timers: multiset<Timer>,              // scheduled kills not yet fired
    allowance: real,                      // `sigint_allowance_time`
    warnings: multiset<Id>)               // exit-code disagreements reported

  const SIGINT: int := 2
  const SIGKILL: int := 9

  /** The shell's exit code for a death by signal `n`: `0x80 + n`. The runner
      uses it for SIGINT (130). */
  function SignalExitCode(n: int): int
  {
    0x80 + n
  }

  /** The convention's two uses: 130 for SIGINT, the code `call_command`
      records, and 137 for SIGKILL. */
  lemma SignalExitCodes()
    ensures SignalExitCode(SIGINT) == 130 && SignalExitCode(SIGKILL) == 137
  {
  }

  /** The synthetic code `_kill_process` records, as the source writes it:
      `0x80 - SIGKILL`. */
  const KilledExitCodeAsWritten: int := 0x80 - SIGKILL

  /** The code as written is 119: below 0x80, so it reads as an ordinary
      exit status rather than a death by signal, and it is not SIGKILL's. */
  lemma KillCodeAsWrittenIsNoSignalCode()
    ensures KilledExitCodeAsWritten == 119
    ensures KilledExitCodeAsWritten < 0x80
    ensures KilledExitCodeAsWritten != SignalExitCode(SIGKILL)
  {
  }

  /** The intended kill code: the convention applied to SIGKILL (137), as
      the runner applies it to SIGINT. */
  const KilledExitCode: int := SignalExitCode(SIGKILL)

  /** What `poll()` reports for a process ended by SIGKILL. */
  const KilledStatus: int := -SIGKILL

  /** A fresh collector; the source's default allowance is one second. */
  function NewCollector(allowance: real): (gc: Gc)
    ensures gc.watched == map[] && !gc.loopStarted && gc.timers == multiset{}
    ensures Valid(gc)
  {
    Gc(map[], map[], false, multiset{}, allowance, multiset{})
  }

  function TimerIds(timers: multiset<Timer>): set<Id>
  {
    set t | t in timers :: t.id
  }

  /** The state every transition keeps: watched records are known, and once
      the loop runs every process still running in the table has a kill
      scheduled. */
  ghost predicate Valid(gc: Gc)
  {
    && gc.watched.Keys <= gc.records.Keys
    && (gc.loopStarted ==> forall id :: id in gc.watched && gc.watched[id].Running? ==> id in TimerIds(gc.timers))
  }

  /** `_schedule_kill`: the kill is due `allowance` after the command's own
      start, not after the moment it is scheduled; without a start time it is
      due `allowance` from now. */
  function KillTimer(allowance: real, id: Id, c: CommandContext, now: real): (t: Timer)
    ensures t.id == id && t.scheduledAt == now
    ensures c.startTime.Some? ==> t.scheduledAt + t.delay == c.startTime.value + allowance
    ensures c.startTime.None? ==> t.delay == allowance
  {
    var delay := if c.startTime.None? then allowance else c.startTime.value + allowance - now;
    Timer(id, delay, now)
  }

  /** `interrupt`: SIGINT is sent first; a process already gone leaves the
      collector as it was. Otherwise the record is watched and, if the loop
      already runs, its kill is scheduled. */
  function Interrupt(gc: Gc, id: Id, c: CommandContext, proc: ProcState, now: real): (r: Gc)
    ensures proc.Exited? ==> r == gc
    ensures proc.Running? ==>
      && r.watched == gc.watched[id := Running]
      && r.records == gc.records[id := c]
      && r.loopStarted == gc.loopStarted && r.allowance == gc.allowance && r.warnings == gc.warnings
      && r.timers == gc.timers + (if gc.loopStarted then multiset{KillTimer(gc.allowance, id, c, now)} else multiset{})
  {
    if proc.Exited? then gc
    else
      var added := gc.(watched := gc.watched[id := Running], records := gc.records[id := c]);
      if gc.loopStarted then added.(timers := gc.timers + multiset{KillTimer(gc.allowance, id, c, now)})
      else added
  }

  /** `run`: the loop now exists, and every record watched at that point
      gets its kill scheduled. */
  function Run(gc: Gc, now: real): (r: Gc)
    ensures r.loopStarted
    ensures r.watched == gc.watched && r.records == gc.records && r.warnings == gc.warnings
    ensures r.allowance == gc.allowance
    ensures gc.timers <= r.timers
    ensures forall id :: id in gc.watched && id in gc.records ==> KillTimer(gc.allowance, id, gc.records[id], now) in r.timers
    ensures forall t :: t in r.timers && t !in gc.timers ==> t.id in gc.watched
  {
    var scheduled := set id | id in gc.watched && id in gc.records :: KillTimer(gc.allowance, id, gc.records[id], now);
    gc.(loopStarted := true, timers := gc.timers + multiset(scheduled))
  }

  /** The record update `_refresh_state` makes for one watched process. */
  function Refreshed(c: CommandContext, proc: ProcState, now: real): CommandContext
  {
    var c1 := if proc.Exited? && Some(proc.code) != c.exitCode then c.(exitCode := Some(proc.code)) else c;
    if c.startTime.Some? then c1.(executionTime := Some(now - c.startTime.value)) else c1
  }

  /** `_refresh_state`: processes that ended leave the table and their record
      takes the observed exit code (with a warning when it differs); running
      ones stay. Every watched record gets its elapsed time updated. */
  function Refresh(gc: Gc, now: real): (r: Gc)
    ensures forall id :: id in r.watched <==> id in gc.watched && gc.watched[id].Running?
    ensures forall id :: id in r.watched ==> r.watched[id] == Running
    ensures r.records.Keys == gc.records.Keys
    ensures forall id :: id in gc.records && id !in gc.watched ==> r.records[id] == gc.records[id]
    ensures forall id :: id in gc.watched && id in gc.records && gc.watched[id].Exited? ==>
      r.records[id].exitCode == Some(gc.watched[id].code)
    ensures forall id :: id in gc.watched && id in gc.records && gc.watched[id].Running? ==>
      r.records[id].exitCode == gc.records[id].exitCode
    ensures r.loopStarted == gc.loopStarted && r.timers == gc.timers && r.allowance == gc.allowance
  {
    var watched := map id | id in gc.watched && gc.watched[id].Running? :: gc.watched[id];
    var records := map id | id in gc.records ::
      if id in gc.watched then Refreshed(gc.records[id], gc.watched[id], now) else gc.records[id];
    var disagreeing := set id | id in gc.watched && gc.watched[id].Exited? && id in gc.records
                                && Some(gc.watched[id].code) != gc.records[id].exitCode;
    gc.(watched := watched, records := records, warnings := gc.warnings + multiset(disagreeing))
  }

  /** `_update_context` with the kill's synthetic exit code. */
  function Killed(c: CommandContext, code: int, now: real): (k: CommandContext)
    ensures k.exitCode == Some(code)
    ensures k.args == c.args && k.stdout == c.stdout && k.stderr == c.stderr && k.startTime == c.startTime
  {
    var c1 := if c.startTime.Some? then c.(executionTime := Some(now - c.startTime.value)) else c;
    c1.(exitCode := Some(code))
  }

  /** `_kill_process` recording `code`: refresh first; a record no longer
      watched is left alone. Otherwise the process is killed and the record
      takes `code`, but stays in the table until a refresh sees the process
      gone. */
  function KillProcessWith(gc: Gc, id: Id, now: real, code: int): (r: Gc)
    ensures id !in Refresh(gc, now).watched ==> r == Refresh(gc, now)
    ensures id in Refresh(gc, now).watched ==>
      && r.watched == Refresh(gc, now).watched[id := Exited(KilledStatus)]
      && (id in gc.records ==> r.records == Refresh(gc, now).records[id := Killed(Refresh(gc, now).records[id], code, now)])
      && (id !in gc.records ==> r.records == Refresh(gc, now).records)
      && r.timers == gc.timers && r.loopStarted == gc.loopStarted
    ensures r.records.Keys == gc.records.Keys
  {
    var g := Refresh(gc, now);
    if id !in g.watched then g
    else
      var records := if id in g.records then g.records[id := Killed(g.records[id], code, now)] else g.records;
      g.(watched := g.watched[id := Exited(KilledStatus)], records := records)
  }

  /** `_kill_process` as the source writes it: a killed record takes 119. */
  function KillProcess(gc: Gc, id: Id, now: real): (r: Gc)
    ensures r.records.Keys == gc.records.Keys
    ensures id !in Refresh(gc, now).watched ==> r == Refresh(gc, now)
    ensures id in Refresh(gc, now).watched ==>
      && r.watched == Refresh(gc, now).watched[id := Exited(KilledStatus)]
      && r.timers == gc.timers && r.loopStarted == gc.loopStarted
    ensures id in Refresh(gc, now).watched && id in gc.records ==>
      && r.records[id].exitCode == Some(119)
      && r.records[id].args == gc.records[id].args && r.records[id].stdout == gc.records[id].stdout
      && r.records[id].stderr == gc.records[id].stderr
    ensures forall other :: other != id && other in gc.records ==> r.records[other] == Refresh(gc, now).records[other]
  {
    KillProcessWith(gc, id, now, KilledExitCodeAsWritten)
  }

  /** `_kill_process` with the intended code, SIGKILL's signal code. */
  function KillProcessIntended(gc: Gc, id: Id, now: real): (r: Gc)
    ensures id !in Refresh(gc, now).watched ==> r == Refresh(gc, now)
    ensures id in Refresh(gc, now).watched ==>
      && r.watched == Refresh(gc, now).watched[id := Exited(KilledStatus)]
      && r.timers == gc.timers && r.loopStarted == gc.loopStarted
    ensures r.records.Keys == gc.records.Keys
    ensures forall other :: other != id && other in gc.records ==> r.records[other] == Refresh(gc, now).records[other]
  {
    KillProcessWith(gc, id, now, KilledExitCode)
  }

  /** With the intended code, the record of a process the collector kills
      reads as a death by SIGKILL, 137, in the same convention as the
      runner's 130. */
  lemma KillRecordsSignalCode(gc: Gc, id: Id, now: real)
    requires id in Refresh(gc, now).watched && id in gc.records
    ensures KillProcessIntended(gc, id, now).records[id].exitCode == Some(137)
    ensures KillProcessIntended(gc, id, now).records[id].exitCode.value - 0x80 == SIGKILL
  {
  }

  /** The event loop firing one scheduled kill. */
  function Fire(gc: Gc, t: Timer, now: real): (r: Gc)
    requires t in gc.timers
    ensures r.timers == gc.timers - multiset{t}
    ensures r.records.Keys == gc.records.Keys && r.loopStarted == gc.loopStarted && r.allowance == gc.allowance
    ensures r.watched.Keys <= gc.watched.Keys
    ensures t.id in r.watched ==> r.watched[t.id] == Exited(KilledStatus)
    ensures forall id :: id in r.watched && id != t.id ==> r.watched[id] == Running
  {
    KillProcess(gc.(timers := gc.timers - multiset{t}), t.id, now)
  }

  /** A watched process ending on its own (after SIGINT, say). */
  function ProcessExit(gc: Gc, id: Id, code: int): (r: Gc)
    ensures id in gc.watched && gc.watched[id].Running? ==> r == gc.(watched := gc.watched[id := Exited(code)])
    ensures !(id in gc.watched && gc.watched[id].Running?) ==> r == gc
  {
    if id in gc.watched && gc.watched[id].Running? then gc.(watched := gc.watched[id := Exited(code)]) else gc
  }

  /** `shutdown_handler`: every still running watched process is killed;
      the table, the records and the pending timers stay as they are. */
  function Shutdown(gc: Gc): (r: Gc)
    ensures r.watched.Keys == gc.watched.Keys
    ensures forall id :: id in r.watched ==> r.watched[id].Exited?
    ensures forall id :: id in gc.watched && gc.watched[id].Exited? ==> r.watched[id] == gc.watched[id]
    ensures r.records == gc.records && r.timers == gc.timers && r.loopStarted == gc.loopStarted
    ensures r.warnings == gc.warnings && r.allowance == gc.allowance
  {
    var watched := map id | id in gc.watched :: if gc.watched[id].Running? then Exited(KilledStatus) else gc.watched[id];
    gc.(watched := watched)
  }

  /** One step of the collector's life. */
  datatype Step =
    | InterruptStep(id: Id, record: CommandContext, proc: ProcState)
    | RunStep
    | FireStep(timer: Timer)
    | ExitStep(id: Id, code: int)
    | ShutdownStep

  function Next(gc: Gc, step: Step, now: real): Gc
  {
    match step
    case InterruptStep(id, c, proc) => Interrupt(gc, id, c, proc, now)
    case RunStep => Run(gc, now)
    case FireStep(t) => if t in gc.timers && t.Due(now) then Fire(gc, t, now) else gc
    case ExitStep(id, code) => ProcessExit(gc, id, code)
    case ShutdownStep => Shutdown(gc)
  }

  lemma RefreshKeepsValid(gc: Gc, now: real)
    requires Valid(gc)
    ensures Valid(Refresh(gc, now))
  {
  }

  lemma InterruptKeepsValid(gc: Gc, id: Id, c: CommandContext, proc: ProcState, now: real)
    requires Valid(gc)
    ensures Valid(Interrupt(gc, id, c, proc, now))
  {
    var r := Interrupt(gc, id, c, proc, now);
    if proc.Running? && gc.loopStarted {
      assert KillTimer(gc.allowance, id, c, now) in r.timers;
      assert TimerIds(gc.timers) <= TimerIds(r.timers);
    }
  }

  lemma RunKeepsValid(gc: Gc, now: real)
    requires Valid(gc)
    ensures Valid(Run(gc, now))
  {
    var r := Run(gc, now);
    forall id | id in r.watched && r.watched[id].Running?
      ensures id in TimerIds(r.timers)
    {
      assert KillTimer(gc.allowance, id, gc.records[id], now) in r.timers;
    }
  }

  lemma FireKeepsValid(gc: Gc, t: Timer, now: real)
    requires Valid(gc) && t in gc.timers
    ensures Valid(Fire(gc, t, now))
  {
    var g := gc.(timers := gc.timers - multiset{t});
    var h := Refresh(g, now);
    forall id | id in h.watched && id != t.id && gc.loopStarted
      ensures id in TimerIds(g.timers)
    {
      var u :| u in gc.timers && u.id == id;
      assert u in g.timers;
    }
  }

  /** Every transition keeps `Valid`: in particular, once the loop runs, no
      process that is still running in the table lacks a scheduled kill. */
  lemma {:induction false} NextKeepsValid(gc: Gc, step: Step, now: real)
    requires Valid(gc)
    ensures Valid(Next(gc, step, now))
  {
    match step
    case InterruptStep(id, c, proc) => InterruptKeepsValid(gc, id, c, proc, now);
    case RunStep => RunKeepsValid(gc, now);
    case FireStep(t) => if t in gc.timers && t.Due(now) { FireKeepsValid(gc, t, now); }
    case ExitStep(id, code) =>
    case ShutdownStep =>
  }

  /** No kill fires before its grace period ends: a scheduled kill whose
      deadline has not come leaves the collector as it is, and a command with
      a start time is not killed before `start + allowance`. */
  lemma NoKillBeforeDeadline(gc: Gc, id: Id, c: CommandContext, sched: real, now: real)
    requires c.startTime.Some? && now < c.startTime.value + gc.allowance
    ensures Next(gc, FireStep(KillTimer(gc.allowance, id, c, sched)), now) == gc
  {
  }

  /** A killed process is never killed twice: the next refresh sees it gone,
      drops it from the table and its record takes the status `poll` reports. */
  lemma KilledLeavesOnNextRefresh(gc: Gc, id: Id, now: real, later: real)
    requires id in Refresh(gc, now).watched && id in gc.records
    ensures id !in Refresh(KillProcess(gc, id, now), later).watched
    ensures Refresh(KillProcess(gc, id, now), later).records[id].exitCode == Some(KilledStatus)
  {
  }

  /** The collector after a sequence of timed steps. */
  function RunSteps(gc: Gc, steps: seq<(Step, real)>): Gc
    decreases |steps|
  {
    if |steps| == 0 then gc else RunSteps(Next(gc, steps[0].0, steps[0].1), steps[1..])
  }

  /** `Valid` holds after any sequence of steps from a state that has it. */
  lemma {:induction false} ReachableIsValid(gc: Gc, steps: seq<(Step, real)>)
    requires Valid(gc)
    ensures Valid(RunSteps(gc, steps))
    decreases |steps|
  {
    if |steps| > 0 {
      NextKeepsValid(gc, steps[0].0, steps[0].1);
      ReachableIsValid(Next(gc, steps[0].0, steps[0].1), steps[1..]);
    }
  }

  /** `Valid` holds in every state a new collector can reach. */
  lemma NewCollectorReachesValid(allowance: real, steps: seq<(Step, real)>)
    ensures Valid(RunSteps(NewCollector(allowance), steps))
  {
    ReachableIsValid(NewCollector(allowance), steps);
  }
}

=== FILE: command_record.dfy ===
/** `CommandContext` of `smelt.process`: what one external command run
    recorded, with its derived status and its log rendering. */
module CommandRecord {
  import opened Wrappers
  import opened Text

  datatype CommandContext = CommandContext(
    args: seq<string>,
    cwd: string,
    exitCode: Option<int>,         // None: not completed
    stdout: seq<string>,
    stderr: seq<string>,
    startTime: Option<real>,
    executionTime: Option<real>)
  {
    /** Still running: no exit code yet. */
    predicate Pending()
    {
      exitCode.None?
    }

    /** Completed with exit code 0. */
    predicate Success()
      ensures Success() ==> !Pending()
    {
      exitCode == Some(0)
    }

    /** The command on one line: the arguments separated by single spaces. */
    function Command(): string
    {
      Join(args, ' ')
    }
  }

  /** The command line gives back its arguments when none contains a space. */
  lemma CommandSplitsBack(c: CommandContext)
    requires |c.args| > 0
    requires forall i :: 0 <= i < |c.args| ==> ' ' !in c.args[i]
    ensures Split(c.Command(), ' ') == c.args
  {
    SplitJoin(c.args, ' ');
  }

  /** The status token of the rendering header. */
  function StatusToken(exitCode: Option<int>): (token: string)
    ensures token == "OK" <==> exitCode == Some(0)
    ensures token == "PENDING" <==> exitCode.None?
    ensures token == "[FAILED]" <==> exitCode.Some? && exitCode.value != 0
  {
    match exitCode
    case Some(0) => "OK"
    case None => "PENDING"
    case Some(_) => "[FAILED]"
  }

  /** The header's token agrees with the record's derived status: `OK`
      exactly for a successful record, `PENDING` exactly for a pending one. */
  lemma StatusTokenAgrees(c: CommandContext)
    ensures StatusToken(c.exitCode) == "OK" <==> c.Success()
    ensures StatusToken(c.exitCode) == "PENDING" <==> c.Pending()
    ensures c.Pending() <==> c.exitCode.None?
    ensures c.Success() <==> c.exitCode == Some(0)
    ensures c.Success() ==> !c.Pending()
  {
  }

  /** The elapsed-time field is shown only for a truthy time: present and
      not zero. Its two-decimal formatting is left to `seconds`. */
  function HeaderFields(c: CommandContext, seconds: real -> string): (fields: seq<string>)
    ensures |fields| == 5 <==> c.executionTime.Some? && c.executionTime.value != 0.0
    ensures |fields| == 4 <==> !(c.executionTime.Some? && c.executionTime.value != 0.0)
    ensures fields[..4] == ["[" + c.cwd + "]", ">", c.Command(), StatusToken(c.exitCode)]
  {
    ["[" + c.cwd + "]", ">", c.Command(), StatusToken(c.exitCode)]
      + (if c.executionTime.Some? && c.executionTime.value != 0.0
         then ["[" + seconds(c.executionTime.value) + "] s"] else [])
  }

  /** A titled block of captured lines, absent when there are none. */
  function Section(title: string, lines: seq<string>): seq<string>
  {
    if lines == [] then [] else [title, "------"] + lines
  }

  /** The lines of `render`, before they are joined with newlines. */
  function RenderLines(c: CommandContext, seconds: real -> string): (lines: seq<string>)
    ensures |lines| == 1 + |Section("Stdout", c.stdout)| + |Section("Stderr", c.stderr)|
    ensures lines[0] == Join(HeaderFields(c, seconds), ' ')
    ensures c.stdout != [] ==> lines[1] == "Stdout" && lines[2] == "------" && lines[3..3 + |c.stdout|] == c.stdout
    ensures c.stderr != [] ==>
      var at := 1 + |Section("Stdout", c.stdout)|;
      lines[at] == "Stderr" && lines[at + 1] == "------" && lines[at + 2..] == c.stderr
    ensures c.stdout == [] && c.stderr == [] ==> |lines| == 1
  {
    [Join(HeaderFields(c, seconds), ' ')] + Section("Stdout", c.stdout) + Section("Stderr", c.stderr)
  }

  /** `render`: the header line, then the stdout block, then the stderr block. */
  function Render(c: CommandContext, seconds: real -> string): string
  {
    Join(RenderLines(c, seconds), '\n')
  }

  /** The rendering can be cut back into its lines when no field, captured
      line or formatted time holds a newline. */
  lemma RenderSplitsIntoLines(c: CommandContext, seconds: real -> string)
    requires forall i :: 0 <= i < |RenderLines(c, seconds)| ==> '\n' !in RenderLines(c, seconds)[i]
    ensures Split(Render(c, seconds), '\n') == RenderLines(c, seconds)
  {
    SplitJoin(RenderLines(c, seconds), '\n');
  }
}

=== FILE: config.dfy ===
/** `smelt.config`: the attrs-based configuration records. Each of the three
    module sections converts a `{path: import path}` table into an import map,
    rejecting import paths that cannot name a Python module. */
module Config {
  import opened Wrappers

  /** A `pathlib.Path` built from a string, kept opaque. */
  datatype PathKey = PathKey(raw: string)

  datatype ConfigError =
    | ImpossibleImportPath(importPath: string)   // `SmeltImpossibleImportPath`
    | UnexpectedKeyword                           // `TypeError`: an unknown keyword
    | NotAMapping                                 // `TypeError`: `**` on a value that is no mapping
    | NoItems                                     // `AttributeError`: `.items()` on a non-dict

  /** `convert_values_to_import_map` over the items of the input dict in
      iteration order. `isValid` is `is_valid_import_path`, which is not part
      of this model. A later item with an equal key overwrites, as a dict
      assignment does. */
  function ImportMapOf(items: seq<(string, string)>, isValid: string -> bool): (r: Result<map<PathKey, string>, ConfigError>)
    ensures r.Failure? <==> exists i :: 0 <= i < |items| && !isValid(items[i].1)
    ensures r.Success? ==> r.value.Keys == set i | 0 <= i < |items| :: PathKey(items[i].0)
  {
    if |items| == 0 then Success(map[])
    else
      var last := items[|items| - 1];
      match ImportMapOf(items[..|items| - 1], isValid)
      case Failure(e) => Failure(e)
      case Success(m) =>
        if !isValid(last.1) then Failure(ImpossibleImportPath(last.1))
        else Success(m[PathKey(last.0) := last.1])
  }

  /** The error names the first invalid import path in iteration order. */
  lemma {:induction false} FirstInvalidReported(items: seq<(string, string)>, isValid: string -> bool, i: nat)
    requires i < |items| && !isValid(items[i].1)
    requires forall j :: 0 <= j < i ==> isValid(items[j].1)
    ensures ImportMapOf(items, isValid) == Failure(ImpossibleImportPath(items[i].1))
  {
    var n := |items|;
    if i < n - 1 {
      FirstInvalidReported(items[..n - 1], isValid, i);
    } else {
      var prefix := items[..n - 1];
      assert forall j :: 0 <= j < |prefix| ==> isValid(prefix[j].1);
    }
  }

  /** On success every key maps to the value of its last occurrence. */
  lemma {:induction false} LastOccurrenceWins(items: seq<(string, string)>, isValid: string -> bool, i: nat)
    requires ImportMapOf(items, isValid).Success?
    requires i < |items|
    requires forall j :: i < j < |items| ==> items[j].0 != items[i].0
    ensures ImportMapOf(items, isValid).value[PathKey(items[i].0)] == items[i].1
  {
    var n := |items|;
    if i < n - 1 {
      LastOccurrenceWins(items[..n - 1], isValid, i);
    }
  }

  /** The three nested section classes share one shape. */
  datatype SectionKind = Mypyc | Cython | NativeExtensions

  datatype Section = Section(kind: SectionKind, modules: map<PathKey, string>)

  /** A value handed to `modules`: a dict, as its items in iteration order,
      or any value that is not a dict (a list, a string, a number). */
  datatype ModulesArg =
    | Items(items: seq<(string, string)>)
    | NotADict

  /** A value handed to a section field: an already built section object, the
      keyword arguments for building one (`modules` is the only field), or a
      value that is no mapping at all (a list, a string, a number). */
  datatype SectionArg =
    | Instance(section: Section)
    | Kwargs(kwargs: map<string, ModulesArg>)
    | NonMapping

  /** Constructing a section class from keyword arguments: an unknown keyword
      is a `TypeError`; a missing `modules` takes the factory's `{}`, which the
      field converter turns into an empty import map; a `modules` that is not a
      dict has no `items`. */
  function MakeSection(kind: SectionKind, kwargs: map<string, ModulesArg>, isValid: string -> bool): (r: Result<Section, ConfigError>)
    ensures r.Success? ==> r.value.kind == kind
    ensures kwargs.Keys - {"modules"} != {} ==> r == Failure(UnexpectedKeyword)
    ensures kwargs.Keys <= {"modules"} && "modules" in kwargs && kwargs["modules"].NotADict? ==>
      r == Failure(NoItems)
    ensures kwargs.Keys <= {"modules"} && "modules" in kwargs && kwargs["modules"].Items? ==>
      r == (match ImportMapOf(kwargs["modules"].items, isValid)
            case Success(m) => Success(Section(kind, m))
            case Failure(e) => Failure(e))
    ensures kwargs == map[] ==> r == Success(Section(kind, map[]))
  {
    if kwargs.Keys - {"modules"} != {} then Failure(UnexpectedKeyword)
    else
      var modules := if "modules" in kwargs then kwargs["modules"] else Items([]);
      match modules
      case NotADict => Failure(NoItems)
      case Items(items) =>
        match ImportMapOf(items, isValid)
        case Success(m) => Success(Section(kind, m))
        case Failure(e) => Failure(e)
  }

  /** `_make_converter(base_cls)` applied to a value: an object that already
      is a `base_cls` passes through unchanged; anything else is unpacked as
      keyword arguments of `base_cls`, which fails for a value that is no
      mapping (another section's object included). */
  function Convert(kind: SectionKind, arg: SectionArg, isValid: string -> bool): (r: Result<Section, ConfigError>)
    ensures r.Success? ==> r.value.kind == kind
    ensures arg.Instance? && arg.section.kind == kind ==> r == Success(arg.section)
    ensures arg.Instance? && arg.section.kind != kind ==> r == Failure(NotAMapping)
    ensures arg.NonMapping? ==> r == Failure(NotAMapping)
    ensures arg.Kwargs? ==> r == MakeSection(kind, arg.kwargs, isValid)
  {
    match arg
    case Instance(s) => if s.kind == kind then Success(s) else Failure(NotAMapping)
    case Kwargs(kw) => MakeSection(kind, kw, isValid)
    case NonMapping => Failure(NotAMapping)
  }

  /** Converting an already converted value changes nothing. */
  lemma ConvertIdempotent(kind: SectionKind, arg: SectionArg, isValid: string -> bool)
    requires Convert(kind, arg, isValid).Success?
    ensures Convert(kind, Instance(Convert(kind, arg, isValid).value), isValid) == Convert(kind, arg, isValid)
  {
  }

  datatype SmeltConfig = SmeltConfig(
    mypyc: Section,
    cython: Section,
    nativeExtensions: Section,
    entrypoint: Option<string>,
    debug: bool)

  /** The value a field takes: the factory's default object when the keyword
      is absent (attrs hands it to the converter too), the converted argument
      otherwise. */
  function Field(kind: SectionKind, arg: Option<SectionArg>, isValid: string -> bool): Result<Section, ConfigError>
  {
    Convert(kind, arg.GetOr(Instance(Section(kind, map[]))), isValid)
  }

  /** `SmeltConfig(...)`: fields are converted in declaration order, so the
      first failing section decides the error. */
  function MakeSmeltConfig(
    mypyc: Option<SectionArg>, cython: Option<SectionArg>, nativeExtensions: Option<SectionArg>,
    entrypoint: Option<string>, debug: bool, isValid: string -> bool): (r: Result<SmeltConfig, ConfigError>)
    ensures Field(Mypyc, mypyc, isValid).Failure? ==> r == Failure(Field(Mypyc, mypyc, isValid).error)
    ensures Field(Mypyc, mypyc, isValid).Success? && Field(Cython, cython, isValid).Failure? ==>
      r == Failure(Field(Cython, cython, isValid).error)
    ensures (Field(Mypyc, mypyc, isValid).Success? && Field(Cython, cython, isValid).Success?
             && Field(NativeExtensions, nativeExtensions, isValid).Failure?) ==>
      r == Failure(Field(NativeExtensions, nativeExtensions, isValid).error)
    ensures r.Success? <==>
      Field(Mypyc, mypyc, isValid).Success? && Field(Cython, cython, isValid).Success?
      && Field(NativeExtensions, nativeExtensions, isValid).Success?
    ensures r.Success? ==>
      && r.value.mypyc == Field(Mypyc, mypyc, isValid).value && r.value.mypyc.kind == Mypyc
      && r.value.cython == Field(Cython, cython, isValid).value && r.value.cython.kind == Cython
      && r.value.nativeExtensions == Field(NativeExtensions, nativeExtensions, isValid).value
      && r.value.nativeExtensions.kind == NativeExtensions
      && r.value.entrypoint == entrypoint && r.value.debug == debug
  {
    var m :- Field(Mypyc, mypyc, isValid);
    var c :- Field(Cython, cython, isValid);
    var n :- Field(NativeExtensions, nativeExtensions, isValid);
    Success(SmeltConfig(m, c, n, entrypoint, debug))
  }

  /** Every configuration class can be built with no arguments at all. */
  lemma DefaultsConstructible(kind: SectionKind, isValid: string -> bool)
    ensures Convert(kind, Kwargs(map[]), isValid) == Success(Section(kind, map[]))
    ensures MakeSmeltConfig(None, None, None, None, false, isValid)
      == Success(SmeltConfig(Section(Mypyc, map[]), Section(Cython, map[]), Section(NativeExtensions, map[]), None, false))
  {
  }
}

=== FILE: contexts.dfy ===
/** `smelt.context`: an opt-in registry of named contexts and an ordered
    list of traces, rendered together into a report. Contexts are values
    here; the registry's module-level switch is a `Registry` value threaded
    through the calls. */
module Contexts {
  import opened Wrappers
  import opened Text
  import opened CommandRecord

  /** Anything with a `render` method: a command record, a task trace, or
      an object of another kind whose rendering is given. */
  datatype Context =
    | Command(record: CommandContext)
    | Task(trace: TaskTrace)
    | Plain(rendered: string)

  /** An element of a task trace: a comment, or a nested context. */
  datatype Element = Note(text: string) | Sub(context: Context)

  datatype TaskTrace = TaskTrace(elements: seq<Element>)

  /** `render` of a context; `seconds` formats a duration, as in the command record. */
  function RenderContext(c: Context, seconds: real -> string): string
    decreases c
  {
    match c
    case Command(record) => CommandRecord.Render(record, seconds)
    case Plain(rendered) => rendered
    case Task(trace) =>
      Join(seq(|trace.elements|, i requires 0 <= i < |trace.elements| =>
                 match trace.elements[i]
                 case Note(text) => text
                 case Sub(d) => RenderContext(d, seconds)), '\n')
  }

  /** How one element of a task trace is rendered. */
  function RenderElement(e: Element, seconds: real -> string): string
  {
    match e
    case Note(text) => text
    case Sub(d) => RenderContext(d, seconds)
  }

  function RenderedElements(t: TaskTrace, seconds: real -> string): (r: seq<string>)
    ensures |r| == |t.elements|
    ensures forall i :: 0 <= i < |r| ==> r[i] == RenderElement(t.elements[i], seconds)
  {
    seq(|t.elements|, i requires 0 <= i < |t.elements| => RenderElement(t.elements[i], seconds))
  }

  /** `TaskTrace.comment`. */
  function Comment(t: TaskTrace, text: string): (r: TaskTrace)
    ensures |r.elements| == |t.elements| + 1
    ensures r.elements[..|t.elements|] == t.elements && r.elements[|t.elements|] == Note(text)
  {
    TaskTrace(t.elements + [Note(text)])
  }

  /** `TaskTrace.add_sub_context`. */
  function AddSubContext(t: TaskTrace, c: Context): (r: TaskTrace)
    ensures |r.elements| == |t.elements| + 1
    ensures r.elements[..|t.elements|] == t.elements && r.elements[|t.elements|] == Sub(c)
  {
    TaskTrace(t.elements + [Sub(c)])
  }

  /** A task trace renders as its elements' renderings, one per line, in
      the order they were added. */
  lemma TaskRenderIsJoin(t: TaskTrace, seconds: real -> string)
    ensures RenderContext(Task(t), seconds) == Join(RenderedElements(t, seconds), '\n')
  {
    assert RenderedElements(t, seconds)
        == seq(|t.elements|, i requires 0 <= i < |t.elements| =>
                 match t.elements[i]
                 case Note(text) => text
                 case Sub(d) => RenderContext(d, seconds));
  }

  /** Adding an element appends its rendering as a new last line. */
  lemma AppendRendersLast(t: TaskTrace, e: Element, seconds: real -> string)
    ensures var before := RenderContext(Task(t), seconds);
      RenderContext(Task(TaskTrace(t.elements + [e])), seconds)
      == if t.elements == [] then RenderElement(e, seconds) else before + "\n" + RenderElement(e, seconds)
  {
    var u := TaskTrace(t.elements + [e]);
    TaskRenderIsJoin(t, seconds);
    TaskRenderIsJoin(u, seconds);
    assert RenderedElements(u, seconds) == RenderedElements(t, seconds) + [RenderElement(e, seconds)];
    JoinSnoc(RenderedElements(t, seconds), RenderElement(e, seconds), '\n');
  }

  /** A rendered task trace splits back into its elements' renderings when
      none of them holds a newline. */
  lemma TaskRenderSplits(t: TaskTrace, seconds: real -> string)
    requires |t.elements| > 0
    requires forall i :: 0 <= i < |t.elements| ==> '\n' !in RenderElement(t.elements[i], seconds)
    ensures Split(RenderContext(Task(t), seconds), '\n') == RenderedElements(t, seconds)
  {
    TaskRenderIsJoin(t, seconds);
    SplitJoin(RenderedElements(t, seconds), '\n');
  }

  /** The persistent contexts, in the order their names were first stored
      (a Python dict keeps insertion order and re-assigning a key keeps its
      place), and the traces in order of addition. */
  datatype GlobalContext = GlobalContext(order: seq<string>, entries: map<string, Context>, traces: seq<Context>)

  /** `order` lists every stored name exactly once. */
  predicate Valid(g: GlobalContext)
  {
    && (forall i, j :: 0 <= i < j < |g.order| ==> g.order[i] != g.order[j])
    && g.entries.Keys == set i | 0 <= i < |g.order| :: g.order[i]
  }

  const EmptyGlobal: GlobalContext := GlobalContext([], map[], [])

  /** `add_trace`. */
  function AddTrace(g: GlobalContext, trace: Context): (r: GlobalContext)
    ensures r.traces == g.traces + [trace]
    ensures r.order == g.order && r.entries == g.entries
  {
    g.(traces := g.traces + [trace])
  }

  /** `clear_traces`. */
  function ClearTraces(g: GlobalContext): (r: GlobalContext)
    ensures r.traces == []
    ensures r.order == g.order && r.entries == g.entries
  {
    g.(traces := [])
  }

  lemma NamesSnoc(order: seq<string>, name: string)
    ensures (set i | 0 <= i < |order + [name]| :: (order + [name])[i]) == (set i | 0 <= i < |order| :: order[i]) + {name}
  {
    var o := order + [name];
    assert o[|order|] == name;
    assert forall i :: 0 <= i < |order| ==> o[i] == order[i];
  }

  /** `create_context`: stores `c` under `name`, overwriting any context
      already there without moving it. */
  function CreateContext(g: GlobalContext, name: string, c: Context): (r: GlobalContext)
    ensures Valid(g) ==> Valid(r)
    ensures r.traces == g.traces
    ensures name in g.entries ==> r.order == g.order
    ensures name !in g.entries ==> r.order == g.order + [name]
  {
    if name in g.entries then g.(entries := g.entries[name := c])
    else
      NamesSnoc(g.order, name);
      g.(order := g.order + [name], entries := g.entries[name := c])
  }

  /** The exception `get_context` raises for a name never stored. */
  datatype KeyError = KeyError(name: string)

  /** `GlobalContext.get_context`: indexes the dictionary, so an absent
      name raises instead of giving `None`. */
  function GetContext(g: GlobalContext, name: string): (r: Result<Context, KeyError>)
    ensures r.Failure? <==> name !in g.entries
    ensures r.Failure? ==> r.error == KeyError(name)
    ensures r.Success? ==> r.value == g.entries[name]
  {
    if name in g.entries then Success(g.entries[name]) else Failure(KeyError(name))
  }

  /** After storing `c` under `name`, looking `name` up gives `c`; every
      other name and the traces are as before. */
  lemma GetAfterCreate(g: GlobalContext, name: string, c: Context, other: string)
    requires other != name
    ensures GetContext(CreateContext(g, name, c), name) == Success(c)
    ensures GetContext(CreateContext(g, name, c), other) == GetContext(g, other)
    ensures CreateContext(g, name, c).traces == g.traces
  {
  }

  /** Storing twice under one name keeps only the second context, at the
      place the first one took. */
  lemma CreateOverwrites(g: GlobalContext, name: string, c: Context, d: Context)
    ensures CreateContext(CreateContext(g, name, c), name, d) == CreateContext(g, name, d)
  {
  }

  /** Clearing the traces leaves every stored context where it was. */
  lemma ClearKeepsContexts(g: GlobalContext, name: string)
    ensures GetContext(ClearTraces(g), name) == GetContext(g, name)
    ensures ClearTraces(g).order == g.order
  {
  }

  const GeneralHeader: string := "General context\n------------"
  const TraceHeader: string := "Trace\n-------------"

  /** For each name in order: the name, a rule of dashes as long as the
      name, and the body rendered under it. */
  function EntryLines(names: seq<string>, bodies: seq<string>): (lines: seq<string>)
    requires |names| == |bodies|
    ensures |lines| == 3 * |names|
    ensures forall i :: 0 <= i < |names| ==>
              && lines[3 * i] == names[i]
              && lines[3 * i + 1] == Repeat('-', |names[i]|)
              && lines[3 * i + 2] == bodies[i]
    decreases |names|
  {
    if names == [] then []
    else
      var rest := EntryLines(names[1..], bodies[1..]);
      assert forall i :: 1 <= i < |names| ==> names[i] == names[1..][i - 1] && bodies[i] == bodies[1..][i - 1];
      [names[0], Repeat('-', |names[0]|), bodies[0]] + rest
  }

  /** Every trace's rendering after `> `, in order of addition. */
  function TraceLines(traces: seq<string>): (lines: seq<string>)
    ensures |lines| == |traces|
    ensures forall j :: 0 <= j < |traces| ==> lines[j] == "> " + traces[j]
  {
    seq(|traces|, j requires 0 <= j < |traces| => "> " + traces[j])
  }

  function GeneralPart(names: seq<string>): seq<string>
  {
    if names != [] then [GeneralHeader] else []
  }

  function TracePart(traces: seq<string>): seq<string>
  {
    if traces != [] then [TraceHeader] else []
  }

  /** The report's lines from the names, their bodies and the traces, all
      already rendered: the general header only when something is stored,
      the trace header only when there are traces. */
  function Layout(names: seq<string>, bodies: seq<string>, traces: seq<string>): (lines: seq<string>)
    requires |names| == |bodies|
    ensures |lines| == |GeneralPart(names)| + 3 * |names| + |TracePart(traces)| + |traces|
    ensures |lines| > 0 && lines[0] == GeneralHeader <==> names != []
    ensures names == [] && traces == [] ==> lines == []
  {
    var lines := GeneralPart(names) + EntryLines(names, bodies) + TracePart(traces) + TraceLines(traces);
    assert names == [] && traces != [] ==> lines[0] == TraceHeader;
    assert TraceHeader[0] != GeneralHeader[0];
    lines
  }

  lemma ConcatIndex<T>(a: seq<T>, b: seq<T>, c: seq<T>, k: nat)
    requires k < |b|
    ensures (a + b + c)[|a| + k] == b[k]
  {
  }

  lemma ConcatIndexRight<T>(a: seq<T>, b: seq<T>, c: seq<T>, k: nat)
    requires k < |c|
    ensures (a + b + c)[|a| + |b| + k] == c[k]
  {
  }

  /** The `i`-th name gives three lines after the general header: the name,
      its rule and its body. */
  lemma LayoutEntry(names: seq<string>, bodies: seq<string>, traces: seq<string>, i: nat)
    requires |names| == |bodies| && i < |names|
    ensures var lines := Layout(names, bodies, traces);
      && lines[1 + 3 * i] == names[i]
      && lines[2 + 3 * i] == Repeat('-', |names[i]|)
      && lines[3 + 3 * i] == bodies[i]
  {
    var e := EntryLines(names, bodies);
    var rest := TracePart(traces) + TraceLines(traces);
    assert Layout(names, bodies, traces) == [GeneralHeader] + e + rest;
    ConcatIndex([GeneralHeader], e, rest, 3 * i);
    ConcatIndex([GeneralHeader], e, rest, 3 * i + 1);
    ConcatIndex([GeneralHeader], e, rest, 3 * i + 2);
  }

  /** After the stored contexts come the trace header and the `j`-th
      trace's line. */
  lemma LayoutTrace(names: seq<string>, bodies: seq<string>, traces: seq<string>, j: nat)
    requires |names| == |bodies| && j < |traces|
    ensures var lines := Layout(names, bodies, traces);
      var at := |GeneralPart(names)| + 3 * |names|;
      && lines[at] == TraceHeader
      && lines[at + 1 + j] == "> " + traces[j]
  {
    var head := GeneralPart(names) + EntryLines(names, bodies);
    var ts := TraceLines(traces);
    assert Layout(names, bodies, traces) == head + [TraceHeader] + ts;
    ConcatIndex(head, [TraceHeader], ts, 0);
    ConcatIndexRight(head, [TraceHeader], ts, j);
  }

  /** One more trace adds its line at the end, after the trace header when
      it is the first. */
  lemma LayoutSnoc(names: seq<string>, bodies: seq<string>, traces: seq<string>, trace: string)
    requires |names| == |bodies|
    ensures Layout(names, bodies, traces + [trace])
            == Layout(names, bodies, traces) + (if traces == [] then [TraceHeader] else []) + ["> " + trace]
  {
    var head := GeneralPart(names) + EntryLines(names, bodies);
    var ts := TraceLines(traces);
    assert TraceLines(traces + [trace]) == ts + ["> " + trace];
    assert Layout(names, bodies, traces + [trace]) == head + [TraceHeader] + (ts + ["> " + trace]);
    assert Layout(names, bodies, traces) == head + TracePart(traces) + ts;
  }

  lemma StoredIffNamed(g: GlobalContext)
    requires Valid(g)
    ensures g.entries != map[] <==> g.order != []
    ensures forall k :: 0 <= k < |g.order| ==> g.order[k] in g.entries
  {
    if g.order != [] {
      assert g.order[0] in g.entries;
    }
    if g.entries != map[] {
      var name :| name in g.entries;
      assert name in g.entries.Keys;
    }
  }

  /** The rendering of each stored context, in the order of `order`. */
  function Bodies(g: GlobalContext, seconds: real -> string): (bodies: seq<string>)
    requires Valid(g)
    ensures |bodies| == |g.order|
    ensures forall i :: 0 <= i < |g.order| ==> bodies[i] == RenderContext(g.entries[g.order[i]], seconds)
  {
    StoredIffNamed(g);
    seq(|g.order|, i requires 0 <= i < |g.order| => RenderContext(g.entries[g.order[i]], seconds))
  }

  /** The rendering of each trace, in order of addition. */
  function TraceTexts(g: GlobalContext, seconds: real -> string): (texts: seq<string>)
    ensures |texts| == |g.traces|
    ensures forall j :: 0 <= j < |g.traces| ==> texts[j] == RenderContext(g.traces[j], seconds)
  {
    seq(|g.traces|, j requires 0 <= j < |g.traces| => RenderContext(g.traces[j], seconds))
  }

  /** The lines of `GlobalContext.render`, before they are joined. */
  function RenderLines(g: GlobalContext, seconds: real -> string): (lines: seq<string>)
    requires Valid(g)
    ensures |lines| > 0 && lines[0] == GeneralHeader <==> g.entries != map[]
    ensures g.entries == map[] && g.traces == [] ==> lines == []
  {
    StoredIffNamed(g);
    Layout(g.order, Bodies(g, seconds), TraceTexts(g, seconds))
  }

  /** The `i`-th stored name gives three lines: the name, a rule as long as
      the name, and the context's rendering. */
  lemma RenderedEntry(g: GlobalContext, seconds: real -> string, i: nat)
    requires Valid(g) && i < |g.order|
    ensures var lines := RenderLines(g, seconds);
      && |lines| > 3 + 3 * i
      && lines[1 + 3 * i] == g.order[i]
      && lines[2 + 3 * i] == Repeat('-', |g.order[i]|)
      && lines[3 + 3 * i] == RenderContext(g.entries[g.order[i]], seconds)
  {
    LayoutEntry(g.order, Bodies(g, seconds), TraceTexts(g, seconds), i);
  }

  /** Each trace gives one line, `> ` and its rendering, after the stored
      contexts and the trace header. */
  lemma RenderedTrace(g: GlobalContext, seconds: real -> string, j: nat)
    requires Valid(g) && j < |g.traces|
    ensures var lines := RenderLines(g, seconds);
      var at := |GeneralPart(g.order)| + 3 * |g.order|;
      && |lines| > at + 1 + j
      && lines[at] == TraceHeader
      && lines[at + 1 + j] == "> " + RenderContext(g.traces[j], seconds)
  {
    LayoutTrace(g.order, Bodies(g, seconds), TraceTexts(g, seconds), j);
  }

  /** `GlobalContext.render`. */
  function Render(g: GlobalContext, seconds: real -> string): string
    requires Valid(g)
  {
    Join(RenderLines(g, seconds), '\n')
  }

  /** Nothing stored and no trace: the report is empty. */
  lemma EmptyRendersNothing(seconds: real -> string)
    ensures Valid(EmptyGlobal) && Render(EmptyGlobal, seconds) == ""
  {
  }

  /** A new trace adds one line to the end of the report, after a trace
      header when it is the first. */
  lemma AddTraceRendersLast(g: GlobalContext, trace: Context, seconds: real -> string)
    requires Valid(g)
    ensures Valid(AddTrace(g, trace))
    ensures RenderLines(AddTrace(g, trace), seconds)
      == RenderLines(g, seconds) + (if g.traces == [] then [TraceHeader] else []) + ["> " + RenderContext(trace, seconds)]
  {
    var g' := AddTrace(g, trace);
    assert Valid(g');
    var texts := TraceTexts(g, seconds);
    var text := RenderContext(trace, seconds);
    assert TraceTexts(g', seconds) == texts + [text];
    assert Bodies(g', seconds) == Bodies(g, seconds);
    LayoutSnoc(g.order, Bodies(g, seconds), texts, text);
  }

  /** The module-level switch: `None` while contexts are disabled. */
  datatype Registry = Registry(global: Option<GlobalContext>)

  const Disabled: Registry := Registry(None)

  /** `is_global_context_enabled`. */
  predicate IsEnabled(reg: Registry)
  {
    reg.global.Some?
  }

  /** `enable_global_context`: creates an empty global context only when
      there is none. */
  function Enable(reg: Registry): (r: Registry)
    ensures IsEnabled(r)
    ensures IsEnabled(reg) ==> r == reg
    ensures !IsEnabled(reg) ==> r.global == Some(EmptyGlobal)
  {
    if reg.global.None? then Registry(Some(EmptyGlobal)) else reg
  }

  /** `reset_contexts`: a new, empty global context, whatever was there. */
  function Reset(reg: Registry): (r: Registry)
    ensures IsEnabled(r)
    ensures r.global.value.entries == map[] && r.global.value.traces == []
  {
    Registry(Some(EmptyGlobal))
  }

  /** `clear_contexts`: drops the global context and disables contexts. */
  function Clear(reg: Registry): (r: Registry)
    ensures !IsEnabled(r)
  {
    Registry(None)
  }

  /** `get_context()` with no name. */
  function GetGlobal(reg: Registry): (r: Option<GlobalContext>)
    ensures r.Some? <==> IsEnabled(reg)
    ensures r.Some? ==> r.value == reg.global.value
  {
    reg.global
  }

  /** `get_context(name)`: `None` while disabled, otherwise the lookup of
      the global context, which raises for an absent name. */
  function GetNamed(reg: Registry, name: string): (r: Result<Option<Context>, KeyError>)
    ensures !IsEnabled(reg) ==> r == Success(None)
    ensures IsEnabled(reg) ==>
      (r.Failure? <==> name !in reg.global.value.entries)
      && (r.Success? ==> r.value == Some(reg.global.value.entries[name]))
  {
    if reg.global.None? then Success(None)
    else
      match GetContext(reg.global.value, name)
      case Success(c) => Success(Some(c))
      case Failure(e) => Failure(e)
  }

  /** The `context` argument of `create_context_if_enabled`: an instance, or
      a class, which is called without arguments to make one. */
  datatype ContextArg = Instance(context: Context) | Class(instantiate: Context)

  function Made(arg: ContextArg): Context
  {
    match arg
    case Instance(c) => c
    case Class(c) => c
  }

  /** `create_context_if_enabled`: while disabled, returns `None` and stores
      nothing; otherwise stores the (made) context under `name` and returns it. */
  function CreateIfEnabled(reg: Registry, name: string, arg: ContextArg): (r: (Option<Context>, Registry))
    ensures !IsEnabled(reg) ==> r == (None, reg)
    ensures IsEnabled(reg) ==> r.0 == Some(Made(arg)) && IsEnabled(r.1)
    ensures IsEnabled(reg) ==> GetNamed(r.1, name) == Success(r.0)
    ensures forall other :: other != name ==> GetNamed(r.1, other) == GetNamed(reg, other)
    ensures IsEnabled(reg) ==> r.1.global.value.traces == reg.global.value.traces
  {
    if reg.global.None? then (None, reg)
    else
      var c := Made(arg);
      (Some(c), Registry(Some(CreateContext(reg.global.value, name, c))))
  }

  /** Enabling twice is enabling once, and never loses what is stored. */
  lemma EnableIdempotent(reg: Registry, name: string)
    ensures Enable(Enable(reg)) == Enable(reg)
    ensures IsEnabled(reg) ==> GetNamed(Enable(reg), name) == GetNamed(reg, name)
  {
  }

  /** After a reset every name is absent; after a clear every lookup gives
      `None` and creating stores nothing. */
  lemma ResetAndClear(reg: Registry, name: string, arg: ContextArg)
    ensures GetNamed(Reset(reg), name) == Failure(KeyError(name))
    ensures GetNamed(Clear(reg), name) == Success(None)
    ensures CreateIfEnabled(Clear(reg), name, arg) == (None, Clear(reg))
  {
  }

  /** Every reachable registry keeps the global context well formed. */
  predicate RegistryValid(reg: Registry)
  {
    reg.global.Some? ==> Valid(reg.global.value)
  }

  lemma OperationsKeepValid(reg: Registry, name: string, arg: ContextArg, trace: Context)
    requires RegistryValid(reg)
    ensures RegistryValid(Enable(reg)) && RegistryValid(Reset(reg)) && RegistryValid(Clear(reg))
    ensures RegistryValid(CreateIfEnabled(reg, name, arg).1)
    ensures reg.global.Some? ==> Valid(AddTrace(reg.global.value, trace)) && Valid(ClearTraces(reg.global.value))
  {
  }

  const Dummies: GlobalContext :=
    GlobalContext(["ctx1", "ctx2"], map["ctx1" := Plain("dummy"), "ctx2" := Plain("dummy")], [])

  lemma FourDashes()
    ensures Repeat('-', 4) == "----"
  {
    var rule := Repeat('-', 4);
    assert forall i :: 0 <= i < 4 ==> rule[i] == "----"[i];
  }

  lemma DummyBodies(seconds: real -> string)
    ensures Valid(Dummies)
    ensures Bodies(Dummies, seconds) == ["dummy", "dummy"] && TraceTexts(Dummies, seconds) == []
  {
    var g := Dummies;
    assert g.order[0] == "ctx1" && g.order[1] == "ctx2";
    assert (set i | 0 <= i < |g.order| :: g.order[i]) == {"ctx1", "ctx2"};
  }

  lemma DummyEntries()
    ensures EntryLines(["ctx1", "ctx2"], ["dummy", "dummy"]) == ["ctx1", "----", "dummy", "ctx2", "----", "dummy"]
  {
    var e := EntryLines(["ctx1", "ctx2"], ["dummy", "dummy"]);
    FourDashes();
    assert e[0] == "ctx1" && e[1] == "----" && e[2] == "dummy";
    assert e[3] == "ctx2" && e[4] == "----" && e[5] == "dummy";
  }

  lemma DummiesRendered(seconds: real -> string)
    ensures Valid(Dummies)
    ensures RenderLines(Dummies, seconds) == [GeneralHeader, "ctx1", "----", "dummy", "ctx2", "----", "dummy"]
  {
    DummyBodies(seconds);
    DummyEntries();
  }

  /** Storing two contexts made from a class that renders `dummy` under
      `ctx1` and `ctx2` yields `Dummies`, and hands back the stored objects. */
  lemma DummiesStored()
    ensures var dummy := Class(Plain("dummy"));
      var first := CreateIfEnabled(Enable(Disabled), "ctx1", dummy);
      var second := CreateIfEnabled(first.1, "ctx2", dummy);
      first.0 == Some(Plain("dummy")) && second.0 == Some(Plain("dummy")) && second.1 == Registry(Some(Dummies))
  {
    FirstDummy();
    SecondDummy();
  }

  const OneDummy: GlobalContext := GlobalContext(["ctx1"], map["ctx1" := Plain("dummy")], [])

  lemma FirstDummy()
    ensures CreateIfEnabled(Enable(Disabled), "ctx1", Class(Plain("dummy"))) == (Some(Plain("dummy")), Registry(Some(OneDummy)))
  {
    var g := CreateContext(EmptyGlobal, "ctx1", Plain("dummy"));
    assert g.order == ["ctx1"];
    assert g.entries == map["ctx1" := Plain("dummy")];
  }

  lemma SecondDummy()
    ensures CreateIfEnabled(Registry(Some(OneDummy)), "ctx2", Class(Plain("dummy"))) == (Some(Plain("dummy")), Registry(Some(Dummies)))
  {
    var g := CreateContext(OneDummy, "ctx2", Plain("dummy"));
    assert "ctx2" !in OneDummy.entries;
    assert g.order == ["ctx1", "ctx2"];
    assert g.entries == map["ctx1" := Plain("dummy"), "ctx2" := Plain("dummy")];
  }

  /** Two contexts made from a class that renders `dummy`, stored under
      `ctx1` and `ctx2`: each lookup gives its own, and both appear in the
      report, in the order stored. */
  lemma TwoDummies(seconds: real -> string)
    ensures var dummy := Class(Plain("dummy"));
      var first := CreateIfEnabled(Enable(Disabled), "ctx1", dummy);
      var second := CreateIfEnabled(first.1, "ctx2", dummy);
      && GetNamed(second.1, "ctx1") == Success(first.0)
      && GetNamed(second.1, "ctx2") == Success(second.0)
      && second.1.global == Some(Dummies) && Valid(Dummies)
      && RenderLines(Dummies, seconds) == [GeneralHeader, "ctx1", "----", "dummy", "ctx2", "----", "dummy"]
  {
    DummiesStored();
    DummiesRendered(seconds);
  }
}

=== FILE: frontend.dfy ===
/** The validators of `smelt.frontend`: they check the `[tool.smelt]` table of
    a `pyproject.toml` and extract the smelt configuration from it. */
module Frontend {
  import opened Wrappers
  import opened Toml

  /** The validated fields, as handed to the backend configuration. */
  datatype ParsedConfig = ParsedConfig(
    cExtensions: map<string, string>,
    mypyc: map<string, string>,
    entrypoint: string)

  function StrEntries(v: Value): (m: map<string, string>)
    requires IsStrTable(v)
    ensures m.Keys == v.entries.Keys
    ensures forall k :: k in m ==> v.entries[k] == Str(m[k])
  {
    map k | k in v.entries :: v.entries[k].s
  }

  /** `c_extensions` as the check sees it: the default `[]` is not a table. */
  predicate CExtensionsOk(data: map<string, Value>)
  {
    IsStrTable(Lookup(data, "c_extensions").GetOr(Array([])))
  }

  predicate MypycOk(data: map<string, Value>)
  {
    IsStrTable(Lookup(data, "mypyc").GetOr(Table(map[])))
  }

  /** `parse_config`: checks `c_extensions`, then `mypyc`, then `entrypoint`;
      the first failing check decides the error. */
  function ParseConfig(data: map<string, Value>): (r: Result<ParsedConfig, ParseError>)
    ensures r == Failure(AssertionFailed("c_extensions")) <==> "c_extensions" !in data || !IsStrTable(data["c_extensions"])
    ensures r == Failure(AssertionFailed("mypyc")) <==>
      "c_extensions" in data && IsStrTable(data["c_extensions"]) && "mypyc" in data && !IsStrTable(data["mypyc"])
    ensures r == Failure(MissingEntrypoint) <==> CExtensionsOk(data) && MypycOk(data) && "entrypoint" !in data
    ensures r == Failure(AssertionFailed("entrypoint")) <==>
      CExtensionsOk(data) && MypycOk(data) && "entrypoint" in data && !data["entrypoint"].Str?
    ensures r.Success? <==>
      CExtensionsOk(data) && MypycOk(data) && "entrypoint" in data && data["entrypoint"].Str?
    ensures r.Success? ==>
      && Table(map k | k in r.value.cExtensions :: Str(r.value.cExtensions[k])) == data["c_extensions"]
      && (if "mypyc" in data then Table(map k | k in r.value.mypyc :: Str(r.value.mypyc[k])) == data["mypyc"]
          else r.value.mypyc == map[])
      && Str(r.value.entrypoint) == data["entrypoint"]
  {
    var cExtensions := Lookup(data, "c_extensions").GetOr(Array([]));
    if !IsStrTable(cExtensions) then Failure(AssertionFailed("c_extensions"))
    else
      var mypyc := Lookup(data, "mypyc").GetOr(Table(map[]));
      if !IsStrTable(mypyc) then Failure(AssertionFailed("mypyc"))
      else match Lookup(data, "entrypoint")
        case None => Failure(MissingEntrypoint)
        case Some(entrypoint) =>
          if !entrypoint.Str? then Failure(AssertionFailed("entrypoint"))
          else Success(ParsedConfig(StrEntries(cExtensions), StrEntries(mypyc), entrypoint.s))
  }

  /** `parse_config_from_pyproject`: locates `[tool.smelt]` and validates it. */
  function ParseConfigFromPyproject(data: map<string, Value>): (r: Result<ParsedConfig, ParseError>)
    ensures r == Failure(ToolNotTable) <==> "tool" in data && !data["tool"].Table?
    ensures r == Failure(NoSmeltSection) <==>
      "tool" !in data || (data["tool"].Table? && "smelt" !in data["tool"].entries)
    ensures r == Failure(SmeltNotTable) <==>
      "tool" in data && data["tool"].Table? && "smelt" in data["tool"].entries && !data["tool"].entries["smelt"].Table?
    ensures "tool" in data && data["tool"].Table? && "smelt" in data["tool"].entries && data["tool"].entries["smelt"].Table? ==>
      r == ParseConfig(data["tool"].entries["smelt"].entries)
  {
    var tool := Lookup(data, "tool").GetOr(Table(map[]));
    if !tool.Table? then Failure(ToolNotTable)
    else match Lookup(tool.entries, "smelt")
      case None => Failure(NoSmeltSection)
      case Some(smelt) =>
        if !smelt.Table? then Failure(SmeltNotTable)
        else ParseConfig(smelt.entries)
  }

  /** A `[tool.smelt]` table written with arrays, as the repository's own
      frontend test writes it, is rejected at the `c_extensions` check. */
  lemma ArrayStyleConfigIsRejected()
    ensures ParseConfigFromPyproject(map["tool" := Table(map["smelt" := Table(map[
      "mypyc" := Array([Str("minimal.fib")]),
      "c_extensions" := Array([Str("minimal.hello")]),
      "entrypoint" := Str("minimal.cli")])])])
      == Failure(AssertionFailed("c_extensions"))
  {
  }
}

=== FILE: nuitka.dfy ===
/** `smelt.nuitkaify.compile_with_nuitka` without the availability check and
    the subprocess: the Nuitka command line and the name of the produced
    binary. */
module Nuitka {
  import opened Wrappers
  import opened Text

  const FollowImports := "--follow-imports"
  const Onefile := "--onefile"
  const ModuleFlag := "--include-module="
  const PackageFlag := "--include-package="

  /** `NUITKA_ENTRYPOINT`: `python -m nuitka` with the running interpreter. */
  function Entrypoint(python: string): seq<string>
  {
    [python, "-m", "nuitka"]
  }

  /** One `<flag><name>` token per name, in order. */
  function Flags(flag: string, names: seq<string>): (tokens: seq<string>)
    ensures |tokens| == |names|
    ensures forall i :: 0 <= i < |names| ==> tokens[i] == flag + names[i]
  {
    seq(|names|, i requires 0 <= i < |names| => flag + names[i])
  }

  /** `if include_modules:` — `None` and an empty list both add nothing. */
  function Given(names: Option<seq<string>>): seq<string>
  {
    names.GetOr([])
  }

  /** The argument list handed to the subprocess. */
  function Argv(python: string, path: string, noFollowImports: bool,
                includeModules: Option<seq<string>>, includePackages: Option<seq<string>>): (argv: seq<string>)
    ensures |argv| >= 5 && argv[..3] == Entrypoint(python)
    ensures var k := if noFollowImports then 3 else 4;
      && |argv| == k + 2 + |Given(includeModules)| + |Given(includePackages)|
      && (!noFollowImports ==> argv[3] == FollowImports)
      && argv[k] == Onefile && argv[k + 1] == path
  {
    Entrypoint(python)
      + (if noFollowImports then [] else [FollowImports])
      + [Onefile, path]
      + Flags(ModuleFlag, Given(includeModules))
      + Flags(PackageFlag, Given(includePackages))
  }

  /** What a command line asks Nuitka for. */
  datatype Request = Request(python: string, path: string, followImports: bool,
                             modules: seq<string>, packages: seq<string>)

  /** Number of leading tokens that carry `flag`. */
  function LeadingWith(flag: string, tokens: seq<string>): (k: nat)
    ensures k <= |tokens|
    ensures forall i :: 0 <= i < k ==> flag <= tokens[i]
    ensures k < |tokens| ==> !(flag <= tokens[k])
  {
    if |tokens| == 0 || !(flag <= tokens[0]) then 0 else 1 + LeadingWith(flag, tokens[1..])
  }

  /** The names behind a run of `<flag><name>` tokens, if every token has the flag. */
  function Unflag(flag: string, tokens: seq<string>): Option<seq<string>>
  {
    if forall i :: 0 <= i < |tokens| ==> flag <= tokens[i]
    then Some(seq(|tokens|, i requires 0 <= i < |tokens| => tokens[i][|flag|..]))
    else None
  }

  /** Reads a command line of the shape `Argv` builds back into a request. */
  function ParseArgv(argv: seq<string>): Option<Request>
  {
    if |argv| < 5 || argv[1] != "-m" || argv[2] != "nuitka" then None
    else
      var follow := argv[3] == FollowImports;
      var rest := if follow then argv[4..] else argv[3..];
      if |rest| < 2 || rest[0] != Onefile then None
      else
        var tail := rest[2..];
        var k := LeadingWith(ModuleFlag, tail);
        match (Unflag(ModuleFlag, tail[..k]), Unflag(PackageFlag, tail[k..]))
        case (Some(modules), Some(packages)) => Some(Request(argv[0], rest[1], follow, modules, packages))
        case _ => None
  }

  lemma UnflagFlags(flag: string, names: seq<string>)
    ensures Unflag(flag, Flags(flag, names)) == Some(names)
  {
    var tokens := Flags(flag, names);
    forall i | 0 <= i < |tokens|
      ensures flag <= tokens[i] && tokens[i][|flag|..] == names[i]
    {
      assert tokens[i] == flag + names[i];
    }
    var stripped := seq(|tokens|, i requires 0 <= i < |tokens| => tokens[i][|flag|..]);
    assert stripped == names;
  }

  lemma PackageTokensAreNotModuleTokens(tokens: seq<string>, names: seq<string>)
    requires tokens == Flags(PackageFlag, names)
    ensures LeadingWith(ModuleFlag, tokens) == 0
  {
    if |tokens| > 0 {
      assert tokens[0][10] == 'p' != ModuleFlag[10];
    }
  }

  /** The command line loses nothing: parsing it gives back the interpreter,
      the path, the follow-imports choice and every included module and
      package in order. */
  lemma {:induction false} ArgvRoundTrip(python: string, path: string, noFollowImports: bool,
                                         includeModules: Option<seq<string>>, includePackages: Option<seq<string>>)
    ensures ParseArgv(Argv(python, path, noFollowImports, includeModules, includePackages))
      == Some(Request(python, path, !noFollowImports, Given(includeModules), Given(includePackages)))
  {
    var tail := Flags(ModuleFlag, Given(includeModules)) + Flags(PackageFlag, Given(includePackages));
    var follow := if noFollowImports then [] else [FollowImports];
    assert Argv(python, path, noFollowImports, includeModules, includePackages)
        == Entrypoint(python) + follow + [Onefile, path] + tail;
    ParseFront(python, path, noFollowImports, tail);
    var rest := [Onefile, path] + tail;
    assert rest[2..] == tail;
    TailRoundTrip(Given(includeModules), Given(includePackages));
  }

  /** The fixed front of the command line is read back as it was built. */
  lemma ParseFront(python: string, path: string, noFollowImports: bool, tail: seq<string>)
    ensures var argv := Entrypoint(python) + (if noFollowImports then [] else [FollowImports]) + [Onefile, path] + tail;
      && |argv| >= 5 && argv[0] == python && argv[1] == "-m" && argv[2] == "nuitka"
      && (argv[3] == FollowImports <==> !noFollowImports)
      && (if argv[3] == FollowImports then argv[4..] else argv[3..]) == [Onefile, path] + tail
  {
    var argv := Entrypoint(python) + (if noFollowImports then [] else [FollowImports]) + [Onefile, path] + tail;
    if noFollowImports {
      assert argv == [python, "-m", "nuitka"] + ([Onefile, path] + tail);
      assert argv[3] == Onefile != FollowImports by {
        assert Onefile[2] != FollowImports[2];
      }
    } else {
      assert argv == [python, "-m", "nuitka", FollowImports] + ([Onefile, path] + tail);
    }
  }

  lemma TailRoundTrip(modules: seq<string>, packages: seq<string>)
    ensures var tail := Flags(ModuleFlag, modules) + Flags(PackageFlag, packages);
      var k := LeadingWith(ModuleFlag, tail);
      Unflag(ModuleFlag, tail[..k]) == Some(modules) && Unflag(PackageFlag, tail[k..]) == Some(packages)
  {
    var mods := Flags(ModuleFlag, modules);
    var pkgs := Flags(PackageFlag, packages);
    var tail := mods + pkgs;
    forall i | 0 <= i < |mods| ensures ModuleFlag <= mods[i] {
      assert mods[i] == ModuleFlag + modules[i];
    }
    PackageTokensAreNotModuleTokens(pkgs, packages);
    LeadingAcross(mods, pkgs);
    assert tail[..|mods|] == mods && tail[|mods|..] == pkgs;
    UnflagFlags(ModuleFlag, modules);
    UnflagFlags(PackageFlag, packages);
  }

  lemma {:induction false} LeadingAcross(mods: seq<string>, pkgs: seq<string>)
    requires forall i :: 0 <= i < |mods| ==> ModuleFlag <= mods[i]
    requires LeadingWith(ModuleFlag, pkgs) == 0
    ensures LeadingWith(ModuleFlag, mods + pkgs) == |mods|
  {
    if |mods| > 0 {
      assert (mods + pkgs)[1..] == mods[1..] + pkgs;
      LeadingAcross(mods[1..], pkgs);
    } else {
      assert mods + pkgs == pkgs;
    }
  }

  /** `sys.platform` on Windows. */
  const WindowsPlatform := "win32"

  /** The extension test as the source writes it: `sys.platform` is compared
      with `"Windows"`, a value it never takes. */
  function ExtensionAsWritten(platform: string): (ext: string)
    ensures ext == ".exe" <==> platform == "Windows"
    ensures platform == WindowsPlatform ==> ext == ".bin"
  {
    if platform == "Windows" then ".exe" else ".bin"
  }

  /** On Windows the test as written still picks `.bin`. */
  lemma WindowsGetsBinAsWritten()
    ensures ExtensionAsWritten(WindowsPlatform) != ".exe"
  {
  }

  /** The extension of the produced binary: `.exe` exactly on Windows. */
  function Extension(platform: string): (ext: string)
    ensures ext == ".exe" <==> platform == WindowsPlatform
    ensures ext == ".bin" <==> platform != WindowsPlatform
  {
    if platform == WindowsPlatform then ".exe" else ".bin"
  }

  /** `.py` starts at position `i` of `s`. */
  predicate PyAt(s: string, i: nat)
  {
    i + 3 <= |s| && s[i] == '.' && s[i + 1] == 'p' && s[i + 2] == 'y'
  }

  predicate NoPy(s: string)
  {
    forall i: nat :: i < |s| ==> !PyAt(s, i)
  }

  /** Replacements that cannot take part in a `.py`: a dot, then no `p`,
      and no further dot. */
  predicate SafeExtension(ext: string)
  {
    |ext| >= 2 && ext[0] == '.' && ext[1] != 'p' && '.' !in ext[1..]
  }

  lemma {:induction false} ReplaceHead(t: string, ext: string)
    requires SafeExtension(ext)
    ensures var r := ReplaceAll(t, ".py", ext);
      && (|t| == 0 ==> r == [])
      && (|t| > 0 && ".py" <= t ==> r == ext + ReplaceAll(t[3..], ".py", ext))
      && (|t| > 0 && !(".py" <= t) ==> r == [t[0]] + ReplaceAll(t[1..], ".py", ext))
  {
  }

  /** No `.py` survives the replacement: the result holds no occurrence, not
      even one formed across the boundary of a replaced piece. */
  lemma {:induction false} NoPyAfterReplace(s: string, ext: string)
    requires SafeExtension(ext)
    ensures NoPy(ReplaceAll(s, ".py", ext))
    decreases |s|
  {
    var r := ReplaceAll(s, ".py", ext);
    ReplaceHead(s, ext);
    if |s| == 0 {
    } else if ".py" <= s {
      var rest := ReplaceAll(s[3..], ".py", ext);
      NoPyAfterReplace(s[3..], ext);
      forall i: nat | i < |r| ensures !PyAt(r, i) {
        if i >= |ext| {
          assert PyAt(r, i) ==> PyAt(rest, i - |ext|);
        } else if i > 0 {
          assert r[i] == ext[1..][i - 1];
        }
      }
    } else {
      var rest := ReplaceAll(s[1..], ".py", ext);
      NoPyAfterReplace(s[1..], ext);
      forall i: nat | i < |r| ensures !PyAt(r, i) {
        if i >= 1 {
          assert PyAt(r, i) ==> PyAt(rest, i - 1);
        } else if |s| >= 2 {
          // A `.py` at 0 would need `rest` to start with `py`, so `s` with `.py`.
          ReplaceHead(s[1..], ext);
          assert s[1..][1..] == s[2..];
          ReplaceHead(s[2..], ext);
        }
      }
    }
  }

  lemma {:induction false} ReplaceKeepsOut(s: string, ext: string, c: char)
    requires c !in s && c !in ext && c != '.'
    ensures c !in ReplaceAll(s, ".py", ext)
    decreases |s|
  {
    if |s| > 0 {
      if ".py" <= s {
        ReplaceKeepsOut(s[3..], ext, c);
      } else {
        ReplaceKeepsOut(s[1..], ext, c);
      }
    }
  }

  /** Both extensions, as written and as intended, are safe replacements. */
  lemma ExtensionIsSafe(platform: string)
    ensures SafeExtension(Extension(platform)) && '/' !in Extension(platform)
    ensures SafeExtension(ExtensionAsWritten(platform)) && '/' !in ExtensionAsWritten(platform)
  {
    var ext := Extension(platform);
    assert ext == ".exe" || ext == ".bin";
    assert ext[1..] == ['e', 'x', 'e'] || ext[1..] == ['b', 'i', 'n'];
    var written := ExtensionAsWritten(platform);
    assert written == ".exe" || written == ".bin";
    assert written[1..] == ['e', 'x', 'e'] || written[1..] == ['b', 'i', 'n'];
  }

  /** The name `compile_with_nuitka` returns: the last path component with
      every `.py` replaced by the extension the source's platform test picks. */
  function BinaryName(path: string, platform: string): (name: string)
    ensures '/' !in name
    ensures NoPy(name)
  {
    var base := Basename(path);
    var ext := ExtensionAsWritten(platform);
    ExtensionIsSafe(platform);
    NoPyAfterReplace(base, ext);
    ReplaceKeepsOut(base, ext, '/');
    ReplaceAll(base, ".py", ext)
  }

  /** The name with the intended platform test: `.exe` on Windows. */
  function BinaryNameIntended(path: string, platform: string): (name: string)
    ensures '/' !in name
    ensures NoPy(name)
  {
    var base := Basename(path);
    var ext := Extension(platform);
    ExtensionIsSafe(platform);
    NoPyAfterReplace(base, ext);
    ReplaceKeepsOut(base, ext, '/');
    ReplaceAll(base, ".py", ext)
  }

  /** On Windows the source's name ends in `.bin` where `.exe` is intended. */
  lemma BinaryNameOnWindows()
    ensures BinaryName("d/m.py", WindowsPlatform) == "m.bin"
    ensures BinaryNameIntended("d/m.py", WindowsPlatform) == "m.exe"
  {
  }

  /** On every platform but Windows (and the name `Windows`, which no
      platform has), the source's name is the intended one. */
  lemma BinaryNamesAgreeOffWindows(path: string, platform: string)
    requires platform != WindowsPlatform && platform != "Windows"
    ensures BinaryName(path, platform) == BinaryNameIntended(path, platform)
  {
  }

  /** A string with no `.py` goes through the replacement unchanged. */
  lemma {:induction false} ReplaceWithoutPy(s: string, ext: string)
    requires NoPy(s)
    ensures ReplaceAll(s, ".py", ext) == s
    decreases |s|
  {
    if |s| > 0 {
      assert !PyAt(s, 0);
      assert !(".py" <= s);
      forall i: nat | i < |s[1..]| ensures !PyAt(s[1..], i) {
        assert PyAt(s[1..], i) ==> PyAt(s, i + 1);
      }
      ReplaceWithoutPy(s[1..], ext);
    }
  }

  /** The last component of `dir/name` is `name` when `name` holds no `/`. */
  lemma {:induction false} BasenameAfterSlash(dir: string, name: string)
    requires '/' !in name
    ensures Basename(dir + "/" + name) == name
    decreases |name|
  {
    var path := dir + "/" + name;
    if |name| > 0 {
      var init := name[..|name| - 1];
      assert path[..|path| - 1] == dir + "/" + init;
      assert path[|path| - 1] == name[|name| - 1];
      BasenameAfterSlash(dir, init);
      assert init + [name[|name| - 1]] == name;
    }
  }

  /** A stem with no `.py` followed by `.py`: only the suffix is replaced. */
  lemma {:induction false} ReplaceScriptSuffix(stem: string, ext: string)
    requires NoPy(stem)
    ensures ReplaceAll(stem + ".py", ".py", ext) == stem + ext
    decreases |stem|
  {
    var s := stem + ".py";
    if |stem| == 0 {
      assert s == ".py" && s[3..] == [];
    } else {
      if |stem| >= 3 {
        assert !PyAt(stem, 0);
      } else {
        assert s[|stem|] == '.';
      }
      assert !(s[0] == '.' && s[1] == 'p' && s[2] == 'y');
      forall i: nat | i < |stem[1..]| ensures !PyAt(stem[1..], i) {
        assert PyAt(stem[1..], i) ==> PyAt(stem, i + 1);
      }
      ReplaceScriptSuffix(stem[1..], ext);
      assert s[1..] == stem[1..] + ".py";
    }
  }

  /** The name of the binary built from `dir/stem.py`: the stem followed by
      the extension the platform test picks, as written and as intended. */
  lemma BinaryNameOfScript(dir: string, stem: string, platform: string)
    requires NoPy(stem) && '/' !in stem
    ensures BinaryName(dir + "/" + stem + ".py", platform) == stem + ExtensionAsWritten(platform)
    ensures BinaryNameIntended(dir + "/" + stem + ".py", platform) == stem + Extension(platform)
  {
    assert dir + "/" + stem + ".py" == dir + "/" + (stem + ".py");
    BasenameAfterSlash(dir, stem + ".py");
    ReplaceScriptSuffix(stem, ExtensionAsWritten(platform));
    ReplaceScriptSuffix(stem, Extension(platform));
  }

  /** A file name with no `.py` in it is returned as it is. */
  lemma BinaryNameKeepsPlainNames(path: string, platform: string)
    requires NoPy(Basename(path))
    ensures BinaryName(path, platform) == Basename(path)
    ensures BinaryNameIntended(path, platform) == Basename(path)
  {
    ReplaceWithoutPy(Basename(path), ExtensionAsWritten(platform));
    ReplaceWithoutPy(Basename(path), Extension(platform));
  }

  lemma BinaryNameExample()
    ensures BinaryName("d/m.py", "linux") == "m.bin"
  {
  }
}

=== FILE: runner.dfy ===
/** `call_command` of `smelt.process`: it pumps a child's two output streams
    until both end, the timeout passes or the selector reports nothing, and
    hands a process still running to the collector. The operating system is
    replaced by a trace: what each pass of the read loop observed. */
module Runner {
  import opened Wrappers
  import opened Text
  import opened CommandRecord
  import Collector

  datatype Stream = Stdout | Stderr

  const AllStreams: set<Stream> := {Stdout, Stderr}

  /** What `readline()` returned on a stream the selector reported ready;
      the empty string is end of stream. */
  datatype Readout = Readout(stream: Stream, line: string)

  /** One pass of the read loop: the elapsed time when the timeout is
      checked, and the streams the selector then reported ready, in order.
      An empty `ready` is a `select` that returned no events. A trace that
      ends is read the same way. */
  datatype Round = Round(elapsed: real, ready: seq<Readout>)

  /** The exit code recorded for a process still running when reading stops. */
  const TimedOutExitCode: int := Collector.SignalExitCode(Collector.SIGINT)

  function Last<T>(s: seq<T>): T
    requires |s| > 0
  {
    s[|s| - 1]
  }

  function Flatten(rounds: seq<Round>): seq<Readout>
    decreases |rounds|
  {
    if |rounds| == 0 then [] else Flatten(rounds[..|rounds| - 1]) + Last(rounds).ready
  }

  /** Streams still registered with the selector after the given readouts. */
  function Open(rs: seq<Readout>): set<Stream>
    decreases |rs|
  {
    if |rs| == 0 then AllStreams
    else Open(rs[..|rs| - 1]) - (if Last(rs).line == "" then {Last(rs).stream} else {})
  }

  /** The lines received, with their stream, each stripped of trailing newlines. */
  function Received(rs: seq<Readout>): seq<Readout>
    decreases |rs|
  {
    if |rs| == 0 then []
    else
      var r := Last(rs);
      Received(rs[..|rs| - 1]) + (if r.line == "" then [] else [Readout(r.stream, RStrip(r.line, '\n'))])
  }

  /** The received lines of one stream, in arrival order. */
  function Lines(received: seq<Readout>, s: Stream): seq<string>
    decreases |received|
  {
    if |received| == 0 then []
    else Lines(received[..|received| - 1], s) + (if Last(received).stream == s then [Last(received).line] else [])
  }

  /** The received lines of both streams, in arrival order. */
  function Texts(received: seq<Readout>): seq<string>
    decreases |received|
  {
    if |received| == 0 then [] else Texts(received[..|received| - 1]) + [Last(received).line]
  }

  /** Reading stops before pass `i`: both streams have ended, the timeout
      has passed, or the selector reports nothing. */
  predicate StopsAt(trace: seq<Round>, i: nat, timeout: Option<real>)
    requires i < |trace|
  {
    || Open(Flatten(trace[..i])) == {}
    || (timeout.Some? && trace[i].elapsed >= timeout.value)
    || trace[i].ready == []
  }

  function RoundsFrom(trace: seq<Round>, timeout: Option<real>, i: nat): (k: nat)
    requires i <= |trace|
    ensures i <= k <= |trace|
    ensures forall j :: i <= j < k ==> !StopsAt(trace, j, timeout)
    ensures k < |trace| ==> StopsAt(trace, k, timeout)
    decreases |trace| - i
  {
    if i == |trace| || StopsAt(trace, i, timeout) then i else RoundsFrom(trace, timeout, i + 1)
  }

  /** The number of passes the loop completes: the first pass at which it
      stops, or the whole trace. */
  function RoundsRead(trace: seq<Round>, timeout: Option<real>): (k: nat)
    ensures k <= |trace|
    ensures forall j :: 0 <= j < k ==> !StopsAt(trace, j, timeout)
    ensures k < |trace| ==> StopsAt(trace, k, timeout)
  {
    RoundsFrom(trace, timeout, 0)
  }

  /** What the loop has gathered when it stops. */
  datatype Capture = Capture(stdout: seq<string>, stderr: seq<string>, printed: seq<string>, rounds: nat)

  /** The reference result: the lines of the passes read, split by stream,
      and every one of them in arrival order for the printer, if there is one. */
  function Captured(trace: seq<Round>, timeout: Option<real>, hasPrinter: bool): Capture
  {
    var k := RoundsRead(trace, timeout);
    var got := Received(Flatten(trace[..k]));
    Capture(Lines(got, Stdout), Lines(got, Stderr), if hasPrinter then Texts(got) else [], k)
  }

  lemma FlattenStep(trace: seq<Round>, i: nat)
    requires i < |trace|
    ensures Flatten(trace[..i + 1]) == Flatten(trace[..i]) + trace[i].ready
  {
    assert trace[..i + 1][..i] == trace[..i];
  }

  lemma SnocStep(rs: seq<Readout>, r: Readout)
    ensures (rs + [r])[..|rs|] == rs && Last(rs + [r]) == r
  {
  }

  lemma FirstStopIsRoundsRead(trace: seq<Round>, timeout: Option<real>, k: nat)
    requires k <= |trace|
    requires forall j :: 0 <= j < k ==> !StopsAt(trace, j, timeout)
    requires k < |trace| ==> StopsAt(trace, k, timeout)
    ensures k == RoundsRead(trace, timeout)
  {
  }

  /** What the loop carries from one readout to the next. */
  datatype Pump = Pump(open: set<Stream>, stdout: seq<string>, stderr: seq<string>, printed: seq<string>)

  /** The loop state after the given readouts, for a run with or without a printer. */
  function PumpAfter(rs: seq<Readout>, hasPrinter: bool): Pump
  {
    var got := Received(rs);
    Pump(Open(rs), Lines(got, Stdout), Lines(got, Stderr), if hasPrinter then Texts(got) else [])
  }

  /** One more readout: an empty line unregisters its stream; any other
      line is stripped, printed and stored under its stream. */
  lemma PumpSnoc(rs: seq<Readout>, r: Readout, hasPrinter: bool)
    ensures var p := PumpAfter(rs, hasPrinter);
      var line := RStrip(r.line, '\n');
      PumpAfter(rs + [r], hasPrinter) ==
        if r.line == "" then p.(open := p.open - {r.stream})
        else Pump(p.open,
                  if r.stream == Stdout then p.stdout + [line] else p.stdout,
                  if r.stream == Stderr then p.stderr + [line] else p.stderr,
                  if hasPrinter then p.printed + [line] else p.printed)
  {
    SnocStep(rs, r);
    if r.line != "" {
      var line := RStrip(r.line, '\n');
      assert Received(rs + [r]) == Received(rs) + [Readout(r.stream, line)];
      SnocStep(Received(rs), Readout(r.stream, line));
    } else {
      assert Received(rs + [r]) == Received(rs);
    }
  }

  /** The body of the `for key, _ in events` loop: one pass over the streams
      the selector reported ready, in the order reported. */
  method ReadReady(p: Pump, ghost seen: seq<Readout>, ready: seq<Readout>, hasPrinter: bool) returns (q: Pump)
    requires p == PumpAfter(seen, hasPrinter)
    ensures q == PumpAfter(seen + ready, hasPrinter)
  {
    q := p;
    var j := 0;
    assert seen + ready[..0] == seen;
    while j < |ready|
      invariant j <= |ready|
      invariant q == PumpAfter(seen + ready[..j], hasPrinter)
    {
      var r := ready[j];
      assert seen + ready[..j + 1] == (seen + ready[..j]) + [r];
      PumpSnoc(seen + ready[..j], r, hasPrinter);
      if r.line == "" {
        q := q.(open := q.open - {r.stream});
      } else {
        var line := RStrip(r.line, '\n');
        if hasPrinter { q := q.(printed := q.printed + [line]); }
        if r.stream == Stdout { q := q.(stdout := q.stdout + [line]); }
        else { q := q.(stderr := q.stderr + [line]); }
      }
      j := j + 1;
    }
    assert ready[..j] == ready;
  }

  /** The read loop of `call_command`, pass by pass. */
  method ReadOutput(trace: seq<Round>, timeout: Option<real>, hasPrinter: bool) returns (c: Capture)
    ensures c == Captured(trace, timeout, hasPrinter)
  {
    var p := PumpAfter([], hasPrinter);
    var rounds := 0;
    while rounds < |trace|
      invariant rounds <= |trace|
      invariant forall j :: 0 <= j < rounds ==> !StopsAt(trace, j, timeout)
      invariant p == PumpAfter(Flatten(trace[..rounds]), hasPrinter)
    {
      if p.open == {} { break; }
      var round := trace[rounds];
      if timeout.Some? && round.elapsed >= timeout.value { break; }
      if round.ready == [] { break; }
      FlattenStep(trace, rounds);
      p := ReadReady(p, Flatten(trace[..rounds]), round.ready, hasPrinter);
      rounds := rounds + 1;
    }
    FirstStopIsRoundsRead(trace, timeout, rounds);
    c := Capture(p.stdout, p.stderr, p.printed, rounds);
  }

  /** What one `call_command` produces: the record, the printer's calls in
      order, and whether the process was handed to the collector. */
  datatype RunOutcome = RunOutcome(record: CommandContext, printed: seq<string>, handedToCollector: bool)

  /** `call_command`. `cwd` is the argument (`None` or empty means the
      process's own directory `processCwd`); `finalPoll` is what `poll()`
      reports once reading has stopped; `startTime` and `endElapsed` stand for
      the clock readings at the start and at the end. */
  function CallCommand(args: seq<string>, cwd: Option<string>, processCwd: string, timeout: Option<real>,
                       trace: seq<Round>, hasPrinter: bool, finalPoll: Option<int>,
                       startTime: real, endElapsed: real): (o: RunOutcome)
    ensures o.handedToCollector <==> finalPoll.None?
    ensures finalPoll.Some? ==> o.record.exitCode == finalPoll
    ensures finalPoll.None? ==> o.record.exitCode == Some(130)
    ensures !o.record.Pending()
    ensures o.record.Success() <==> finalPoll == Some(0)
    ensures o.record.args == args && o.record.Command() == Join(args, ' ')
    ensures o.record.cwd == if cwd.Some? && cwd.value != "" then cwd.value else processCwd
    ensures o.record.startTime == Some(startTime) && o.record.executionTime == Some(endElapsed)
    ensures o.record.stdout == Captured(trace, timeout, hasPrinter).stdout
    ensures o.record.stderr == Captured(trace, timeout, hasPrinter).stderr
    ensures o.printed == Captured(trace, timeout, hasPrinter).printed
  {
    var captured := Captured(trace, timeout, hasPrinter);
    var exitCode := if finalPoll.Some? then finalPoll.value else TimedOutExitCode;
    var dir := if cwd.Some? && cwd.value != "" then cwd.value else processCwd;
    var record := CommandContext(args, dir, Some(exitCode), captured.stdout, captured.stderr,
                                 Some(startTime), Some(endElapsed));
    RunOutcome(record, captured.printed, finalPoll.None?)
  }

  /** A record identity not yet in use: a new record is a new object. */
  ghost function FreshId(used: set<Collector.Id>): (id: Collector.Id)
    ensures id !in used
    ensures forall u :: u in used ==> u < id
    decreases used
  {
    if used == {} then 0
    else
      var u :| u in used;
      var id := FreshId(used - {u});
      var r := if u < id then id else u + 1;
      assert forall x :: x in used ==> x == u || x in used - {u};
      r
  }

  /** `call_command` together with what it does to the collector: a process
      still running when reading stops is interrupted and handed over under a
      new record identity; otherwise the collector is not touched.
      `procAtSignal` is the process's state when SIGINT is sent. */
  ghost function CallCommandSupervised(gc: Collector.Gc, args: seq<string>, cwd: Option<string>, processCwd: string,
                                 timeout: Option<real>, trace: seq<Round>, hasPrinter: bool,
                                 finalPoll: Option<int>, procAtSignal: Collector.ProcState,
                                 startTime: real, endElapsed: real): (r: (RunOutcome, Collector.Id, Collector.Gc))
    ensures r.0 == CallCommand(args, cwd, processCwd, timeout, trace, hasPrinter, finalPoll, startTime, endElapsed)
    ensures r.1 !in gc.records
    ensures finalPoll.Some? ==> r.2 == gc
    ensures finalPoll.None? ==> r.2 == Collector.Interrupt(gc, r.1, r.0.record, procAtSignal, startTime + endElapsed)
  {
    var o := CallCommand(args, cwd, processCwd, timeout, trace, hasPrinter, finalPoll, startTime, endElapsed);
    var id := FreshId(gc.records.Keys);
    if o.handedToCollector then (o, id, Collector.Interrupt(gc, id, o.record, procAtSignal, startTime + endElapsed))
    else (o, id, gc)
  }

  lemma {:induction false} FlattenPrefix(trace: seq<Round>, a: nat, b: nat)
    requires a <= b <= |trace|
    ensures Flatten(trace[..a]) <= Flatten(trace[..b])
    decreases b
  {
    if a < b {
      FlattenPrefix(trace, a, b - 1);
      FlattenStep(trace, b - 1);
    }
  }

  lemma {:induction false} ReceivedPrefix(rs: seq<Readout>, more: seq<Readout>)
    requires rs <= more
    ensures Received(rs) <= Received(more)
    decreases |more|
  {
    if |rs| < |more| {
      ReceivedPrefix(rs, more[..|more| - 1]);
    } else {
      assert rs == more;
    }
  }

  lemma {:induction false} LinesPrefix(got: seq<Readout>, more: seq<Readout>, s: Stream)
    requires got <= more
    ensures Lines(got, s) <= Lines(more, s) && Texts(got) <= Texts(more)
    decreases |more|
  {
    if |got| < |more| {
      LinesPrefix(got, more[..|more| - 1], s);
    } else {
      assert got == more;
    }
  }

  /** A timeout only cuts the output short: with the same trace, what is
      read under a timeout is a prefix of what is read without one, stream by
      stream and for the printer. */
  lemma TimeoutOnlyTruncates(trace: seq<Round>, t: real, hasPrinter: bool)
    ensures var cut := Captured(trace, Some(t), hasPrinter);
      var full := Captured(trace, None, hasPrinter);
      cut.rounds <= full.rounds
      && cut.stdout <= full.stdout && cut.stderr <= full.stderr && cut.printed <= full.printed
  {
    var a := RoundsRead(trace, Some(t));
    var b := RoundsRead(trace, None);
    if b < a {
      assert StopsAt(trace, b, Some(t));
    }
    FlattenPrefix(trace, a, b);
    ReceivedPrefix(Flatten(trace[..a]), Flatten(trace[..b]));
    var got := Received(Flatten(trace[..a]));
    var more := Received(Flatten(trace[..b]));
    LinesPrefix(got, more, Stdout);
    LinesPrefix(got, more, Stderr);
  }

  lemma {:induction false} TextsSplitByStream(got: seq<Readout>)
    ensures |Texts(got)| == |Lines(got, Stdout)| + |Lines(got, Stderr)|
    decreases |got|
  {
    if |got| > 0 {
      TextsSplitByStream(got[..|got| - 1]);
    }
  }

  /** With a printer, it is called once for every stored line of either stream. */
  lemma PrinterSeesEveryLine(trace: seq<Round>, timeout: Option<real>)
    ensures var c := Captured(trace, timeout, true);
      |c.printed| == |c.stdout| + |c.stderr|
  {
    TextsSplitByStream(Received(Flatten(trace[..RoundsRead(trace, timeout)])));
  }

  /** A stored line never ends in a newline, and every readout that is not
      an end of stream is stored. */
  lemma {:induction false} ReceivedStripped(rs: seq<Readout>)
    ensures forall i :: 0 <= i < |Received(rs)| ==>
              var l := Received(rs)[i].line; |l| == 0 || l[|l| - 1] != '\n'
    ensures |Received(rs)| == |rs| - |EndsOf(rs)|
    decreases |rs|
  {
    if |rs| > 0 {
      ReceivedStripped(rs[..|rs| - 1]);
      assert rs == rs[..|rs| - 1] + [Last(rs)];
      EndsSnoc(rs[..|rs| - 1], Last(rs));
    }
  }

  /** The positions of the end-of-stream readouts. */
  function EndsOf(rs: seq<Readout>): set<nat>
  {
    set i | 0 <= i < |rs| && rs[i].line == ""
  }

  lemma EndsSnoc(rs: seq<Readout>, r: Readout)
    ensures |EndsOf(rs + [r])| == |EndsOf(rs)| + (if r.line == "" then 1 else 0)
  {
    var s := rs + [r];
    assert EndsOf(rs) == set i | 0 <= i < |rs| && s[i].line == "";
    if r.line == "" {
      assert EndsOf(s) == EndsOf(rs) + {|rs|};
    } else {
      assert EndsOf(s) == EndsOf(rs);
    }
  }

  lemma StripNewline(d: char)
    requires d != '\n'
    ensures RStrip([d, '\n'], '\n') == [d]
  {
    assert [d, '\n'][..1] == [d];
  }

  lemma ReadoutSnoc(rs: seq<Readout>, r: Readout)
    ensures Open(rs + [r]) == Open(rs) - (if r.line == "" then {r.stream} else {})
    ensures Received(rs + [r]) == Received(rs) + (if r.line == "" then [] else [Readout(r.stream, RStrip(r.line, '\n'))])
  {
    SnocStep(rs, r);
  }

  lemma LineSnoc(got: seq<Readout>, r: Readout, s: Stream)
    ensures Lines(got + [r], s) == Lines(got, s) + (if r.stream == s then [r.line] else [])
  {
    SnocStep(got, r);
  }

  /** The command `sleep .1; echo 1; sleep .1; echo 2; sleep .1; echo 3`,
      read to the end: three lines, then both streams end. */
  const EchoTrace: seq<Round> := [Round(0.0, [Readout(Stdout, "1\n")]), Round(0.1, [Readout(Stdout, "2\n")]),
                                  Round(0.2, [Readout(Stdout, "3\n")]), Round(0.3, [Readout(Stdout, "")]),
                                  Round(0.3, [Readout(Stderr, "")])]

  const EchoReadouts: seq<Readout> := [Readout(Stdout, "1\n"), Readout(Stdout, "2\n"), Readout(Stdout, "3\n"),
                                       Readout(Stdout, ""), Readout(Stderr, "")]

  lemma EchoFlatten(i: nat)
    requires i <= 5
    ensures Flatten(EchoTrace[..i]) == EchoReadouts[..i]
  {
    if i > 0 {
      EchoFlatten(i - 1);
      FlattenStep(EchoTrace, i - 1);
      assert EchoReadouts[..i] == EchoReadouts[..i - 1] + [EchoReadouts[i - 1]];
    }
  }

  lemma EchoReceived()
    ensures Received(EchoReadouts) == [Readout(Stdout, "1"), Readout(Stdout, "2"), Readout(Stdout, "3")]
  {
    EchoOpen();
  }

  lemma EchoOpen()
    ensures forall i :: 0 <= i <= 3 ==> Open(EchoReadouts[..i]) == AllStreams
    ensures Open(EchoReadouts[..4]) == {Stderr}
    ensures Received(EchoReadouts) == [Readout(Stdout, "1"), Readout(Stdout, "2"), Readout(Stdout, "3")]
  {
    var rs := EchoReadouts;
    StripNewline('1');
    StripNewline('2');
    StripNewline('3');
    assert rs[..1] == [] + [rs[0]];
    ReadoutSnoc([], rs[0]);
    assert rs[..2] == rs[..1] + [rs[1]];
    ReadoutSnoc(rs[..1], rs[1]);
    assert rs[..3] == rs[..2] + [rs[2]];
    ReadoutSnoc(rs[..2], rs[2]);
    assert rs[..4] == rs[..3] + [rs[3]];
    ReadoutSnoc(rs[..3], rs[3]);
    assert rs == rs[..4] + [rs[4]];
    ReadoutSnoc(rs[..4], rs[4]);
  }

  lemma EchoReadsAll()
    ensures RoundsRead(EchoTrace, None) == 5
  {
    EchoOpen();
    forall i | 0 <= i < 5
      ensures !StopsAt(EchoTrace, i, None)
    {
      EchoFlatten(i);
      assert i <= 3 || i == 4;
    }
  }

  lemma EchoLines(got: seq<Readout>)
    requires got == [Readout(Stdout, "1"), Readout(Stdout, "2"), Readout(Stdout, "3")]
    ensures Lines(got, Stdout) == ["1", "2", "3"] && Lines(got, Stderr) == []
  {
    LineSnoc([], got[0], Stdout);
    LineSnoc([], got[0], Stderr);
    LineSnoc(got[..1], got[1], Stdout);
    LineSnoc(got[..1], got[1], Stderr);
    LineSnoc(got[..2], got[2], Stdout);
    LineSnoc(got[..2], got[2], Stderr);
    assert got[..1] == [] + [got[0]] && got[..2] == got[..1] + [got[1]] && got == got[..2] + [got[2]];
  }

  /** Read to the end: lines `1`, `2`, `3` and exit code 0. */
  lemma EchoToTheEnd()
    ensures var o := CallCommand(["sleep .1; echo 1; sleep .1; echo 2; sleep .1; echo 3"], None, "/", None,
                                 EchoTrace, false, Some(0), 0.0, 0.3);
      o.record.stdout == ["1", "2", "3"] && o.record.stderr == [] && o.record.Success()
  {
    EchoCaptured();
  }

  lemma EchoGot()
    ensures RoundsRead(EchoTrace, None) == 5
    ensures Received(Flatten(EchoTrace[..5])) == [Readout(Stdout, "1"), Readout(Stdout, "2"), Readout(Stdout, "3")]
  {
    EchoReadsAll();
    EchoFlatten(5);
    assert EchoReadouts[..5] == EchoReadouts;
    EchoReceived();
  }

  lemma EchoCaptured()
    ensures Captured(EchoTrace, None, false) == Capture(["1", "2", "3"], [], [], 5)
  {
    EchoGot();
    EchoLines([Readout(Stdout, "1"), Readout(Stdout, "2"), Readout(Stdout, "3")]);
  }

  /** The same command with a 0.15 s timeout: the second pass finds the time
      up, only `1` is kept, the record gets 130 and the process goes to the
      collector. */
  lemma EchoTimesOut()
    ensures var trace := [Round(0.0, [Readout(Stdout, "1\n")]), Round(0.15, [Readout(Stdout, "2\n")])];
      CallCommand(["sleep .1; echo 1; sleep .1; echo 2; sleep .1; echo 3"], None, "/", Some(0.15),
                  trace, false, None, 0.0, 0.15)
      == RunOutcome(CommandContext(["sleep .1; echo 1; sleep .1; echo 2; sleep .1; echo 3"], "/", Some(130),
                                   ["1"], [], Some(0.0), Some(0.15)), [], true)
  {
    var trace := [Round(0.0, [Readout(Stdout, "1\n")]), Round(0.15, [Readout(Stdout, "2\n")])];
    assert trace[..0] == [];
    assert !StopsAt(trace, 0, Some(0.15));
    assert RoundsRead(trace, Some(0.15)) == 1;
    FlattenStep(trace, 0);
    var r := Readout(Stdout, "1\n");
    assert Flatten(trace[..1]) == [] + [r];
    ReadoutSnoc([], r);
    StripNewline('1');
    LineSnoc([], Readout(Stdout, "1"), Stdout);
    LineSnoc([], Readout(Stdout, "1"), Stderr);
    assert TimedOutExitCode == 130;
  }
}

=== FILE: text.dfy ===
/** String helpers shared by the record rendering, the context reports and
    the Nuitka command line: Python's `sep.join`, `str.split`, `str.rstrip`,
    `str.replace` and POSIX `os.path.basename`, on `seq<char>`. */
module Text {

  /** `sep.join(parts)` for a one-character separator. */
  function Join(parts: seq<string>, sep: char): string
  {
    if |parts| == 0 then ""
    else if |parts| == 1 then parts[0]
    else parts[0] + [sep] + Join(parts[1..], sep)
  }

  /** Position of the first occurrence of `c` in `s`. */
  function IndexOf(s: string, c: char): (i: nat)
    requires c in s
    ensures i < |s| && s[i] == c
    ensures c !in s[..i]
  {
    if s[0] == c then 0 else 1 + IndexOf(s[1..], c)
  }

  /** `s.split(sep)`: the pieces between occurrences of `sep`, never empty. */
  function Split(s: string, sep: char): (parts: seq<string>)
    ensures |parts| >= 1
    decreases |s|
  {
    if sep !in s then [s]
    else
      var i := IndexOf(s, sep);
      [s[..i]] + Split(s[i + 1..], sep)
  }

  lemma IndexOfIsFirst(s: string, c: char, j: nat)
    requires j < |s| && s[j] == c && c !in s[..j]
    ensures c in s && IndexOf(s, c) == j
  {
  }

  /** Splitting a join at the separator gives back the parts, provided no
      part contains the separator: the join loses no information. */
  lemma {:induction false} SplitJoin(parts: seq<string>, sep: char)
    requires |parts| > 0
    requires forall k :: 0 <= k < |parts| ==> sep !in parts[k]
    ensures Split(Join(parts, sep), sep) == parts
  {
    if |parts| > 1 {
      var rest := Join(parts[1..], sep);
      var s := parts[0] + [sep] + rest;
      assert s[..|parts[0]|] == parts[0];
      IndexOfIsFirst(s, sep, |parts[0]|);
      assert s[|parts[0]| + 1..] == rest;
      SplitJoin(parts[1..], sep);
      assert [parts[0]] + parts[1..] == parts;
    }
  }

  /** Appending one part to a non-empty join adds the separator and the part. */
  lemma {:induction false} JoinSnoc(parts: seq<string>, x: string, sep: char)
    ensures Join(parts + [x], sep) == if |parts| == 0 then x else Join(parts, sep) + [sep] + x
  {
    if |parts| > 1 {
      assert (parts + [x])[1..] == parts[1..] + [x];
      JoinSnoc(parts[1..], x, sep);
    } else if |parts| == 1 {
      assert (parts + [x])[1..] == [x];
    }
  }

  /** `s.rstrip(c)`: drops every trailing `c`, nothing else. */
  function RStrip(s: string, c: char): (r: string)
    ensures r <= s
    ensures |r| == 0 || r[|r| - 1] != c
    ensures forall i :: |r| <= i < |s| ==> s[i] == c
  {
    if |s| > 0 && s[|s| - 1] == c then RStrip(s[..|s| - 1], c) else s
  }

  /** `s.replace(pattern, replacement)`: every non-overlapping occurrence of `pattern`,
      scanning left to right, is replaced by `replacement`. With an empty `pattern`,
      `replacement` is inserted before every character and at the end, as Python does. */
  function ReplaceAll(s: string, pattern: string, replacement: string): string
    decreases |s|
  {
    if pattern == [] then
      if s == [] then replacement else replacement + [s[0]] + ReplaceAll(s[1..], pattern, replacement)
    else if pattern <= s then replacement + ReplaceAll(s[|pattern|..], pattern, replacement)
    else if s == [] then []
    else [s[0]] + ReplaceAll(s[1..], pattern, replacement)
  }

  /** POSIX `os.path.basename`: the part after the last `/`. The Windows
      separator `\\` is not treated as a separator. */
  function Basename(path: string): (r: string)
    ensures '/' !in r
    ensures |r| <= |path| && r == path[|path| - |r|..]
    ensures |r| < |path| ==> path[|path| - |r| - 1] == '/'
  {
    if path == [] then []
    else if path[|path| - 1] == '/' then []
    else Basename(path[..|path| - 1]) + [path[|path| - 1]]
  }

  /** `c * n` for a one-character string `c`. */
  function Repeat(c: char, n: nat): (r: string)
    ensures |r| == n && forall i :: 0 <= i < n ==> r[i] == c
  {
    seq(n, _ => c)
  }
}

=== FILE: toml.dfy ===
/** TOML data as `tomllib` hands it to the validators: strings, arrays and
    tables, plus the other scalar kinds (integers, booleans) that a
    validator must reject where it expects one of the former. */
module Toml {
  import opened Wrappers

  datatype Value =
    | Str(s: string)
    | Int(i: int)
    | Bool(b: bool)
    | Array(items: seq<Value>)
    | Table(entries: map<string, Value>)

  /** `table.get(key)`: absent keys give `None`. */
  function Lookup(table: map<string, Value>, key: string): Option<Value>
  {
    if key in table then Some(table[key]) else None
  }

  /** A table whose every value is a string (`dict[str, str]`). */
  predicate IsStrTable(v: Value)
  {
    v.Table? && forall k :: k in v.entries ==> v.entries[k].Str?
  }

  /** An array whose every element is a string (`list[str]`). */
  predicate IsStrArray(v: Value)
  {
    v.Array? && forall i :: 0 <= i < |v.items| ==> v.items[i].Str?
  }

  /** The errors a config validator can end with. `AssertionFailed` is an
      `assert` in the validator (an `AssertionError`, not caught by the
      command-line error wrapper); the others are `SmeltConfigError`s. */
  datatype ParseError =
    | ToolNotTable
    | NoSmeltSection
    | SmeltNotTable
    | MissingEntrypoint
    | AssertionFailed(key: string)
  {
    predicate IsSmeltConfigError() { !AssertionFailed? }
  }
}

=== FILE: wrappers.dfy ===
/** Failure-compatible wrappers used throughout the model: an optional value
    (Python's `None`) and a result that is either a value or a raised error. */
module Wrappers {

  datatype Option<+T> = None | Some(value: T) {
    predicate IsFailure() { None? }

    function PropagateFailure<U>(): Option<U>
      requires None?
    {
      None
    }

    function Extract(): T
      requires Some?
    {
      value
    }

    function GetOr(default: T): T {
      match this
      case Some(v) => v
      case None => default
    }
  }

  datatype Result<+R, +E> = Success(value: R) | Failure(error: E) {
    predicate IsFailure() { Failure? }

    function PropagateFailure<U>(): Result<U, E>
      requires Failure?
    {
      Failure(error)
    }

    function Extract(): R
      requires Success?
    {
      value
    }
  }
}
